=== FILE: README.md ===
# PrimitiveCoder in Dafny

PrimitiveCoder is a Swift library that converts values of structured types to and from
plain in-memory trees. It plugs into Swift's `Codable` machinery.

- **PrimitiveDecoder** reads a `[String: Any?]` / `[Any?]` tree into a typed value.
- **PrimitiveEncoder** turns a typed value into an `Encoded` tree of `.nil`, `.single`,
  `.keyed` and `.unkeyed` nodes. Its `primitiveTypes` list names types that are stored
  as-is in a `.single` node instead of being taken apart.

Both engines report where they are with a coding path of coding keys.

This project models the key type, the three decoding containers and the three encoding
containers. It proves that they behave as the library's code and comments say.

## Files

- `results.dfy`: module `Results`, the `Result` and `Option` wrappers.
- `coding_key.dfy`: module `CodingKeys`.
  - `AnyCodingKey`, its four initialisers and its two projections.
  - The decimal rendering of integers, which string interpolation performs.
- `values.dfy`: module `Values`.
  - The closed family of types the engines drive: scalars, structs with named fields,
    and arrays.
  - `HasType`, which stands for Swift's static typing.
  - `Dyn`, the untyped tree that decoding reads.
- `decoder.dfy`: module `PrimitiveDecoding`.
  - Specification functions: `GenericDecoding`, `SelfDecoding`, `FieldsDecoding`,
    `ElementsDecoding`.
  - The classes `Decoder`, `KeyedDecodingContainer`, `UnkeyedDecodingContainer` and
    `SingleValueDecodingContainer`, whose methods are proved against those functions.
  - `DecodeSelf`, the types' own decode. Its loops are proved against the specification.
- `encoder.dfy`: module `PrimitiveEncoding`.
  - Specification functions: `GenericEncoding`, `SelfEncoding`, `FieldsEncoding`,
    `ElementsEncoding`.
  - The classes `PrimitiveEncoder`, `Encoder` and the three encoding containers.
  - A container's completion closure is the `Sink` datatype.
  - `deinit` is an explicit `Finish()`, which delivers the container's node to its
    completion.
- `round_trip.dfy`: module `RoundTrip`.
  - Decoding what a value encodes to gives the value back, whatever the pass-through
    types are.
  - `ToDyn` bridges the two tree shapes: a keyed node becomes the dictionary of its keys'
    display strings, and a later pair for the same string wins.

An entry whose value is an explicit nil counts as contained: the code tests the outer
optional of the `[String: Any?]` lookup (Sources/PrimitiveCoder/PrimitiveDecoder.swift:84).
`KeyedDecodingContainer.Contains` models exactly that.

## Model

| member | source | states |
|---|---|---|
| CodingKeys.FromStringValue | Sources/PrimitiveCoder/AnyCodingKey.swift:21-23 | never fails; the key's display string is the given string and it has no integer |
| CodingKeys.FromIntValue | Sources/PrimitiveCoder/AnyCodingKey.swift:26-28 | never fails; the key's integer is the given one; its display string is a canonical decimal (no leading zero, no "-0") that parses back to it, hence the one rendering of that integer |
| CodingKeys.FromIndex | Sources/PrimitiveCoder/AnyCodingKey.swift:31-33 | the index key carries the index as its integer; its display string is "Index " followed by a canonical decimal that parses back to the index |
| CodingKeys.FromStringAndInt | Sources/PrimitiveCoder/AnyCodingKey.swift:36-42 | display string and integer are the given ones; the key is a dual key exactly when the integer is present |
| CodingKeys.StringValueCases | Sources/PrimitiveCoder/AnyCodingKey.swift:44-52 | string and dual keys show their string; an integer key shows a canonical decimal that parses back to its integer; an index key shows "Index " then the canonical decimal of its index; the superclass key shows "super" |
| CodingKeys.IntValueCarried | Sources/PrimitiveCoder/AnyCodingKey.swift:54-62 | the integer projection is present exactly for integer, index and dual keys, and equals the carried integer |
| CodingKeys.IndexAndIntKeysDiffer | Sources/PrimitiveCoder/AnyCodingKey.swift:47-48 | an index key and an integer key with the same integer share their integer but never their display string |
| CodingKeys.IntKeysInjective | Sources/PrimitiveCoder/AnyCodingKey.swift:47 | two integer keys with the same display string carry the same integer |
| CodingKeys.DecimalRoundTrip | Sources/PrimitiveCoder/AnyCodingKey.swift:47-48 | parsing the decimal rendering of an integer gives the integer back |
| CodingKeys.DecimalStringCanonical | Sources/PrimitiveCoder/AnyCodingKey.swift:47-48 | the rendering of every integer is canonical: digits without a leading zero except "0", or "-" and such digits other than "0" |
| CodingKeys.CanonicalDecimalUnique | Sources/PrimitiveCoder/AnyCodingKey.swift:47-48 | a canonical decimal string is exactly the rendering of the integer it parses to, so a canonical string and its integer determine each other |
| PrimitiveDecoding.Decoder.Container | Sources/PrimitiveCoder/PrimitiveDecoder.swift:44-46 | a keyed container over the decoder's node and path; typeMismatch at the decoder's path when the node is not a mapping |
| PrimitiveDecoding.Decoder.UnkeyedContainer | Sources/PrimitiveCoder/PrimitiveDecoder.swift:48-50 | an unkeyed container at index 0 over the node; typeMismatch when the node is not a sequence |
| PrimitiveDecoding.Decoder.SingleValueContainer | Sources/PrimitiveCoder/PrimitiveDecoder.swift:52-54 | an unconsumed single-value container over the same node and path |
| PrimitiveDecoding.KeyedDecodingContainer.Open | Sources/PrimitiveCoder/PrimitiveDecoder.swift:59-66 | typeMismatch at the path for any node that is not a mapping, with no container created; otherwise a container over exactly that mapping |
| PrimitiveDecoding.KeyedDecodingContainer.Contains | Sources/PrimitiveCoder/PrimitiveDecoder.swift:83-85 | true exactly when a keyed read of the key finds an entry (explicit-nil entries included); false exactly when it throws keyNotFound |
| PrimitiveDecoding.KeyedDecodingContainer.AllKeys | Sources/PrimitiveCoder/PrimitiveDecoder.swift:81 | holds exactly the keys the key type's string initialiser produces from a mapping key |
| PrimitiveDecoding.KeyedDecodingContainer.AllKeysAreContained | Sources/PrimitiveCoder/PrimitiveDecoder.swift:81-85 | every listed key is contained, for a key type whose string round-trips |
| PrimitiveDecoding.KeyedDecodingContainer.AllKeysOfAnyCodingKey | Sources/PrimitiveCoder/PrimitiveDecoder.swift:81 | with the path key type, every mapping key is listed, as a string key |
| PrimitiveDecoding.KeyedDecodingContainer.DecodeNil | Sources/PrimitiveCoder/PrimitiveDecoder.swift:87-89 | keyNotFound for a missing key; otherwise whether the entry is nil |
| PrimitiveDecoding.KeyedDecodingContainer.DecodePrimitive | Sources/PrimitiveCoder/PrimitiveDecoder.swift:91-93 | keyNotFound for a missing key; otherwise the scalar read of the entry at path + [key] |
| PrimitiveDecoding.KeyedDecodingContainer.Decode | Sources/PrimitiveCoder/PrimitiveDecoder.swift:157-159 | keyNotFound for a missing key; otherwise the generic read of the entry at path + [key] |
| PrimitiveDecoding.KeyedDecodingContainer.NestedContainer | Sources/PrimitiveCoder/PrimitiveDecoder.swift:161-163 | keyNotFound for a missing key, typeMismatch at path + [key] for a non-mapping entry, otherwise a keyed container over the entry at path + [key] |
| PrimitiveDecoding.KeyedDecodingContainer.NestedUnkeyedContainer | Sources/PrimitiveCoder/PrimitiveDecoder.swift:165-167 | keyNotFound, typeMismatch for a non-sequence entry, or an unkeyed container at index 0 over the entry at path + [key] |
| PrimitiveDecoding.KeyedDecodingContainer.SuperDecoder | Sources/PrimitiveCoder/PrimitiveDecoder.swift:169-171 | a decoder over the entry under "super" at path + [super]; keyNotFound when there is none |
| PrimitiveDecoding.KeyedDecodingContainer.SuperDecoderForKey | Sources/PrimitiveCoder/PrimitiveDecoder.swift:173-175 | a decoder over the entry under the key at path + [key]; keyNotFound when there is none |
| PrimitiveDecoding.UnkeyedDecodingContainer.Open | Sources/PrimitiveCoder/PrimitiveDecoder.swift:180-187 | typeMismatch for any node that is not a sequence, with no container created; otherwise a container at index 0 over exactly that sequence |
| PrimitiveDecoding.UnkeyedDecodingContainer.Count | Sources/PrimitiveCoder/PrimitiveDecoder.swift:195 | the optional count is always present and is the number of elements |
| PrimitiveDecoding.UnkeyedDecodingContainer.IsAtEnd | Sources/PrimitiveCoder/PrimitiveDecoder.swift:195-199 | with the cursor within bounds, at the end exactly when the cursor equals the element count |
| PrimitiveDecoding.UnkeyedDecodingContainer.Next | Sources/PrimitiveCoder/PrimitiveDecoder.swift:201-209 | at the end, valueNotFound with the cursor unchanged; otherwise the element under the cursor with path + [Index(old cursor)], and the cursor advances by exactly one; the cursor never passes the end |
| PrimitiveDecoding.UnkeyedDecodingContainer.DecodeNilAsWritten | Sources/PrimitiveCoder/PrimitiveDecoder.swift:211-213 | whether the element under the cursor is nil; the cursor advances whether or not it is |
| PrimitiveDecoding.UnkeyedDecodingContainer.DecodeNil | Sources/PrimitiveCoder/PrimitiveDecoder.swift:211-213 | whether the element under the cursor is nil; the cursor advances only past a nil element |
| PrimitiveDecoding.UnkeyedDecodingContainer.DecodePrimitive | Sources/PrimitiveCoder/PrimitiveDecoder.swift:215-217 | at the end, valueNotFound and no move; otherwise the scalar read of the element at path + [Index(old cursor)], and the cursor advances by one |
| PrimitiveDecoding.UnkeyedDecodingContainer.Decode | Sources/PrimitiveCoder/PrimitiveDecoder.swift:281-283 | at the end, valueNotFound and no move; otherwise the generic read of the element at path + [Index(old cursor)], and the cursor advances by one |
| PrimitiveDecoding.UnkeyedDecodingContainer.NestedContainer | Sources/PrimitiveCoder/PrimitiveDecoder.swift:285-287 | the element is consumed before the child is built: a typeMismatch at path + [Index(old cursor)] still advances the cursor |
| PrimitiveDecoding.UnkeyedDecodingContainer.NestedUnkeyedContainer | Sources/PrimitiveCoder/PrimitiveDecoder.swift:289-291 | the same for a nested unkeyed container, which starts at index 0 |
| PrimitiveDecoding.UnkeyedDecodingContainer.SuperDecoder | Sources/PrimitiveCoder/PrimitiveDecoder.swift:293-295 | a decoder over the element under the cursor at path + [Index(old cursor)]; valueNotFound at the end |
| PrimitiveDecoding.ReadToEnd | Sources/PrimitiveCoder/PrimitiveDecoder.swift:197-209 | reading until the end takes exactly as many reads as elements remain; the j-th of them succeeds with the element at old cursor + j and path + [Index(old cursor + j)]; the container is then valid with its cursor exactly at the element count, and the next read throws valueNotFound |
| PrimitiveDecoding.SingleValueDecodingContainer.DecodeNil | Sources/PrimitiveCoder/PrimitiveDecoder.swift:325-327 | whether the node is nil; a function of the node alone, so it cannot consume the value |
| PrimitiveDecoding.SingleValueDecodingContainer.NilReadsAsNoValue | Sources/PrimitiveCoder/PrimitiveDecoder.swift:385-395 | a node that reads as nil is a value of no type: a scalar or generic read of it throws typeMismatch at the container's path |
| PrimitiveDecoding.SingleValueDecodingContainer.DecodePrimitive | Sources/PrimitiveCoder/PrimitiveDecoder.swift:314-323 | the value is marked consumed before the type check; a second read throws valueNotFound; the first is the scalar read of the node |
| PrimitiveDecoding.SingleValueDecodingContainer.Decode | Sources/PrimitiveCoder/PrimitiveDecoder.swift:385-395 | the same consumption rule; the first read passes a value of the requested type through unchanged, otherwise runs the type's own decode on the same node and path |
| PrimitiveDecoding.DecodeSelf | Sources/PrimitiveCoder/PrimitiveDecoder.swift:390-393 | a type's own decode through fresh containers equals the specification: fields read by name in declaration order, elements read until the end, the first error reported |
| PrimitiveDecoding.Decode | Sources/PrimitiveCoder/PrimitiveDecoder.swift:24-26 | top-level decode is the generic read of the whole tree at the empty path |
| PrimitiveDecoding.DecodeStringTwice | Tests/PrimitiveCoderTests/PrimitiveDecoderTests.swift:22-34 | a type that reads its single value twice always fails: valueNotFound when the first read succeeds, typeMismatch when it does not |
| PrimitiveDecoding.ProbeThenDecodeAsWritten | Sources/PrimitiveCoder/PrimitiveDecoder.swift:201-213 | after decodeNil() on a non-nil element, the next read gets the following element (or valueNotFound) |
| PrimitiveDecoding.ProbeThenDecode | Sources/PrimitiveCoder/PrimitiveDecoder.swift:201-213 | with the corrected decodeNil(), the next read gets the probed element |
| PrimitiveDecoding.FieldsErrorPersists | Sources/PrimitiveCoder/PrimitiveDecoder.swift:157-159 | once a field read fails, the struct's decode reports that same error |
| PrimitiveDecoding.ElementsErrorPersists | Sources/PrimitiveCoder/PrimitiveDecoder.swift:281-283 | once an element read fails, the array's decode reports that same error |
| PrimitiveDecoding.GenericDecodingHasType | Sources/PrimitiveCoder/PrimitiveDecoder.swift:385-395 | a successful generic decode as a type yields a value of that type |
| PrimitiveDecoding.SelfDecodingHasType | Sources/PrimitiveCoder/PrimitiveDecoder.swift:390-393 | a successful own decode yields a value of the type |
| PrimitiveDecoding.FieldsDecodingHaveTypes | Sources/PrimitiveCoder/PrimitiveDecoder.swift:157-159 | the values read for a struct's fields have the fields' types, one per field |
| PrimitiveDecoding.ElementsDecodingHaveType | Sources/PrimitiveCoder/PrimitiveDecoder.swift:281-283 | the values read for an array have the element type, one per element |
| PrimitiveDecoding.GenericDecodingErrorPath | Sources/PrimitiveCoder/PrimitiveDecoder.swift:68-73 | the path of any decoding error extends the path the read started at |
| PrimitiveDecoding.SelfDecodingErrorPath | Sources/PrimitiveCoder/PrimitiveDecoder.swift:59-66 | the same for a type's own decode |
| PrimitiveDecoding.FieldsDecodingErrorPath | Sources/PrimitiveCoder/PrimitiveDecoder.swift:68-73 | the same for the field reads of a struct |
| PrimitiveDecoding.ElementsDecodingErrorPath | Sources/PrimitiveCoder/PrimitiveDecoder.swift:201-209 | the same for the element reads of an array |
| PrimitiveDecoding.MissingFieldIsKeyNotFound | Sources/PrimitiveCoder/PrimitiveDecoder.swift:68-73 | the first missing field of a struct makes its decode throw keyNotFound for that field's key at the struct's path |
| PrimitiveDecoding.DecodesSimpleObject | Tests/PrimitiveCoderTests/PrimitiveDecoderTests.swift:5-19 | decoding ["date": d, "colour": c] as SimpleObject gives SimpleObject(date: d, colour: c) |
| PrimitiveEncoding.Deliver | Sources/PrimitiveCoder/PrimitiveEncoder.swift:93-96 | a completion appends under its key to a keyed parent, appends to an unkeyed parent, or fills a single-value parent's slot or the output slot, and changes nothing else of that parent; it is only ever run on a parent that has not finished |
| PrimitiveEncoding.PrimitiveEncoder.Encode | Sources/PrimitiveCoder/PrimitiveEncoder.swift:35-46 | top-level encode returns the node the root single-value container delivers, which is the generic encoding of the value under the configured pass-through types |
| PrimitiveEncoding.Encoder.Container | Sources/PrimitiveCoder/PrimitiveEncoder.swift:73-75 | an empty keyed container with the encoder's path and completion |
| PrimitiveEncoding.Encoder.UnkeyedContainer | Sources/PrimitiveCoder/PrimitiveEncoder.swift:77-79 | an empty unkeyed container with the encoder's path and completion |
| PrimitiveEncoding.Encoder.SingleValueContainer | Sources/PrimitiveCoder/PrimitiveEncoder.swift:81-83 | an empty single-value container with the encoder's path and completion |
| PrimitiveEncoding.KeyedEncodingContainer.EncodeScalar | Sources/PrimitiveCoder/PrimitiveEncoder.swift:100-154 | appends exactly one (key, single(v)) at the end; earlier pairs, duplicates and order are kept |
| PrimitiveEncoding.KeyedEncodingContainer.EncodeNil | Sources/PrimitiveCoder/PrimitiveEncoder.swift:156-158 | appends exactly one (key, nil) at the end |
| PrimitiveEncoding.KeyedEncodingContainer.Encode | Sources/PrimitiveCoder/PrimitiveEncoder.swift:89-98 | appends exactly one pair under the key: the value as-is for a pass-through type, otherwise the node a nested encoder at path + [key] delivers |
| PrimitiveEncoding.KeyedEncodingContainer.NestedContainer | Sources/PrimitiveCoder/PrimitiveEncoder.swift:160-164 | an empty keyed child at path + [key] that delivers under the key |
| PrimitiveEncoding.KeyedEncodingContainer.NestedUnkeyedContainer | Sources/PrimitiveCoder/PrimitiveEncoder.swift:166-170 | an empty unkeyed child at path + [key] that delivers under the key |
| PrimitiveEncoding.KeyedEncodingContainer.SuperEncoder | Sources/PrimitiveCoder/PrimitiveEncoder.swift:172-176 | an encoder at path + [super] that delivers under the key super |
| PrimitiveEncoding.KeyedEncodingContainer.SuperEncoderForKey | Sources/PrimitiveCoder/PrimitiveEncoder.swift:178-182 | an encoder at path + [key] that delivers under the key |
| PrimitiveEncoding.KeyedEncodingContainer.Finish | Sources/PrimitiveCoder/PrimitiveEncoder.swift:184-186 | delivers keyed(result) to the completion, once; the completion's target must still be open, so a finished container receives nothing more, from its own writes or from its children |
| PrimitiveEncoding.UnkeyedEncodingContainer.EncodeScalar | Sources/PrimitiveCoder/PrimitiveEncoder.swift:203-257 | appends exactly one single(v) at the end |
| PrimitiveEncoding.UnkeyedEncodingContainer.EncodeNil | Sources/PrimitiveCoder/PrimitiveEncoder.swift:259-261 | appends exactly one nil at the end |
| PrimitiveEncoding.UnkeyedEncodingContainer.Encode | Sources/PrimitiveCoder/PrimitiveEncoder.swift:194-201 | appends exactly one node: the value as-is for a pass-through type, otherwise the node a nested encoder at the same path delivers |
| PrimitiveEncoding.UnkeyedEncodingContainer.NestedContainer | Sources/PrimitiveCoder/PrimitiveEncoder.swift:263-265 | an empty keyed child at path + [Index(count)], with count always 0, that appends to this container |
| PrimitiveEncoding.UnkeyedEncodingContainer.NestedUnkeyedContainer | Sources/PrimitiveCoder/PrimitiveEncoder.swift:267-269 | an empty unkeyed child at path + [Index(count)] that appends to this container |
| PrimitiveEncoding.UnkeyedEncodingContainer.SuperEncoder | Sources/PrimitiveCoder/PrimitiveEncoder.swift:271-273 | an encoder at path + [super] that appends to this container |
| PrimitiveEncoding.UnkeyedEncodingContainer.Finish | Sources/PrimitiveCoder/PrimitiveEncoder.swift:275-277 | delivers unkeyed(result) to the completion, once, and only into a target that has not finished |
| PrimitiveEncoding.SingleValueEncodingContainer.EncodeScalar | Sources/PrimitiveCoder/PrimitiveEncoder.swift:292-346 | the slot holds single(v), replacing any earlier write |
| PrimitiveEncoding.SingleValueEncodingContainer.EncodeNil | Sources/PrimitiveCoder/PrimitiveEncoder.swift:348-350 | the slot holds nil, replacing any earlier write |
| PrimitiveEncoding.SingleValueEncodingContainer.Encode | Sources/PrimitiveCoder/PrimitiveEncoder.swift:283-290 | the slot holds the value as-is for a pass-through type, otherwise the node a nested encoder writing this slot delivers |
| PrimitiveEncoding.SingleValueEncodingContainer.Finish | Sources/PrimitiveCoder/PrimitiveEncoder.swift:352-354 | delivers the last value written, once, and only into a target that has not finished; with nothing written it delivers nothing and reports that |
| PrimitiveEncoding.EncodeSelf | Sources/PrimitiveCoder/PrimitiveEncoder.swift:69-83 | a type's own encode through the encoder's containers delivers exactly its specified encoding to the encoder's completion: fields by name in declaration order, elements in order |
| PrimitiveEncoding.FieldsEncodingAt | Sources/PrimitiveCoder/PrimitiveEncoder.swift:89-98 | a struct's keyed node has one pair per field, the j-th under the j-th field's name holding that field's encoding |
| PrimitiveEncoding.ElementsEncodingAt | Sources/PrimitiveCoder/PrimitiveEncoder.swift:194-201 | an array's unkeyed node has one node per element, in order |
| PrimitiveEncoding.PassThroughField | Sources/PrimitiveCoder/PrimitiveEncoder.swift:90-91 | a field of a pass-through type is stored as single(value), not taken apart |
| PrimitiveEncoding.EncodesTwoFields | Sources/PrimitiveCoder/PrimitiveEncoder.swift:89-98 | encoding {a: 1, b: 2} gives keyed([(a, single 1), (b, single 2)]) |
| RoundTrip.EntriesToMapKeys | Sources/PrimitiveCoder/PrimitiveDecoder.swift:59-66 | the dictionary's keys are exactly the display strings of the keyed node's keys |
| RoundTrip.EntriesToMapAt | Sources/PrimitiveCoder/PrimitiveDecoder.swift:68-73 | a key's display string holds that pair's node whenever no later pair reuses the string |
| RoundTrip.GenericRoundTrip | Sources/PrimitiveCoder/PrimitiveEncoder.swift:89-98 | decoding what a value encodes to gives the value back, for every list of pass-through types |
| RoundTrip.SelfRoundTrip | Sources/PrimitiveCoder/PrimitiveDecoder.swift:385-395 | the same for a type's own encode, read back by the generic decode |
| RoundTrip.FieldsRoundTrip | Sources/PrimitiveCoder/PrimitiveDecoder.swift:157-159 | reading a struct's fields back from its encoding gives its field values |
| RoundTrip.FieldEntry | Sources/PrimitiveCoder/PrimitiveDecoder.swift:68-73 | each field is found under its own name in the dictionary of its struct's encoding |
| RoundTrip.ElementsRoundTrip | Sources/PrimitiveCoder/PrimitiveDecoder.swift:281-283 | reading an array's elements back from its encoding gives its elements |
| RoundTrip.EncodeThenDecode | Sources/PrimitiveCoder/PrimitiveEncoder.swift:35-46 | top-level decode of top-level encode's output gives the value back |

## Left out

- Foundation dynamic casts (`as? [String: Any?]`, `as? T`) are modelled as tag checks on the
  closed `Dyn` and `Value` datatypes. Swift's bridging rules are not captured, for example a
  typed array read through `as? [Any]`.
- The per-width scalar overloads (Bool, String, Int8 … UInt128, Float, Double) are one scalar
  path keyed by a type name. Payloads are opaque bytes, with no numeric reasoning.
- `Date` and user `Codable` conformances are foreign code. The closed family of scalars,
  structs with synthesised keyed coding, and arrays stands in for them.
- `userInfo` dictionaries are not modelled: the engines carry them but never read them.
- Error contents are only partly modelled: errors keep their kind and coding path. They drop
  the expected type and the offending value that `typeMismatch` and `valueNotFound` carry
  (Sources/PrimitiveCoder/PrimitiveDecoder.swift:61, 204, 320), and the debug description.
- The unused `_BaseContainer.constainer` helper and its `containers` array are not modelled.
- `deinit` timing, ARC and `unowned` references are not modelled. A container finishes
  through an explicit `Finish()` call, made once its owner is done with it. The ordering that
  the strong captures guarantee (a parent finishes only after all its children have delivered)
  is kept as the precondition `Open` of `Deliver` and of every `Finish`.
- PrimitiveEncoding.SingleValueEncodingContainer.Finish: finishing with nothing written
  force-unwraps and traps in the source. Here it delivers nothing and returns false, and
  top-level encode then reports foundNil.
- PrimitiveDecoding.KeyedDecodingContainer.AllKeys: the source returns an array in
  dictionary order; the model returns a set, because that order is unspecified.
- The unkeyed encoder's `count` is never incremented in the source. The model reproduces
  this, so nested unkeyed paths end in `Index 0`. Encode-side paths never reach the output.
- Integer keys are unbounded integers; Swift's 64-bit `Int` width is not modelled.
- Keys compare as sequences of Unicode scalars; Swift's String equality up to canonical
  equivalence (é written as one scalar or as e plus a combining accent is one key) is not
  modelled. A mapping here can also hold two canonically equivalent keys, which a Swift
  dictionary cannot.
- A coding path is a sequence of `AnyCodingKey`s. A struct's own coding keys are written as
  `Name` keys with the same string and no integer value, which is what synthesised
  `CodingKeys` give; key types with integer values are not modelled. `KeyNotFound` and the
  keyed pairs of an `Encoded` node carry that `Name` key.
- `ToDyn` is a bridge that exists only in this model; the library itself has no conversion
  from `Encoded` to a dictionary tree.
- The round trip covers the closed family, which never encodes nil. Decoding of nested
  optionals is not modelled.

## Findings

| source | as written | input that shows it | evidently intended | confidence | as-written member | corrected member |
|---|---|---|---|---|---|---|
| Sources/PrimitiveCoder/PrimitiveDecoder.swift:211-213 | unkeyed `decodeNil()` goes through `decoder(_:_:)`, which always advances `currentIndex`, so a non-nil element is skipped | items [1, 2]: `decodeNil()` returns false, then `decode(Int.self)` returns 2 instead of 1 | only a nil element is consumed, as Swift's `UnkeyedDecodingContainer` contract requires; a non-nil element stays for the next read | not executed | PrimitiveDecoding.ProbeThenDecodeAsWritten | PrimitiveDecoding.ProbeThenDecode |

=== FILE: coding_key.dfy ===
/**
 * The path key of both engines: one step of a coding path, with the two
 * projections every coding key offers, its display string and its optional
 * integer.
 */
module CodingKeys {
  import opened Results

  /** A coding path: the keys from the root of the tree down to one node. */
  type Path = seq<AnyCodingKey>

  /**
   * `Name` is a plain string key, `Int` a bare integer key, `Index` a position
   * in an array (shown differently from a bare integer), `Both` a key with a
   * string and an integer, and `Super` the reserved key of a superclass
   * encoder or decoder.
   */
  datatype AnyCodingKey = Name(str: string) | Int(n: int) | Index(i: int) | Both(str: string, n: int) | Super
  {
    /** The display string of the key. */
    function StringValue(): string {
      match this
      case Name(s) => s
      case Int(n) => DecimalString(n)
      case Index(i) => "Index " + DecimalString(i)
      case Both(s, _) => s
      case Super => "super"
    }

    /** The integer carried by the key, if it has one. */
    function IntValue(): Option<int> {
      match this
      case Name(_) => None
      case Int(n) => Some(n)
      case Index(i) => Some(i)
      case Both(_, n) => Some(n)
      case Super => None
    }
  }

  /** The failable initialiser from a string; it never fails. */
  function FromStringValue(s: string): (k: Option<AnyCodingKey>)
    ensures k.Some? && k.value.StringValue() == s && k.value.IntValue() == None
  {
    Some(Name(s))
  }

  /** The failable initialiser from an integer; it never fails. */
  function FromIntValue(n: int): (k: Option<AnyCodingKey>)
    ensures k.Some? && k.value.IntValue() == Some(n)
    ensures ParseDecimal(k.value.StringValue()) == Some(n) && CanonicalDecimal(k.value.StringValue())
  {
    DecimalRoundTrip(n);
    DecimalStringCanonical(n);
    Some(Int(n))
  }

  /** The key of the element at position `index` of an array. */
  function FromIndex(index: int): (k: AnyCodingKey)
    ensures k.IntValue() == Some(index)
    ensures |k.StringValue()| > 6 && k.StringValue()[..6] == "Index "
    ensures ParseDecimal(k.StringValue()[6..]) == Some(index) && CanonicalDecimal(k.StringValue()[6..])
  {
    DecimalRoundTrip(index);
    DecimalStringCanonical(index);
    assert ("Index " + DecimalString(index))[6..] == DecimalString(index);
    Index(index)
  }

  /** A key with a string and an optional integer: a dual key exactly when the integer is there. */
  function FromStringAndInt(s: string, n: Option<int>): (k: AnyCodingKey)
    ensures k.StringValue() == s && k.IntValue() == n
    ensures k.Both? <==> n.Some?
  {
    if n.Some? then Both(s, n.value) else Name(s)
  }

  // ---------------------------------------------------------------------------
  // Decimal rendering of integers (string interpolation of an Int)
  // ---------------------------------------------------------------------------

  predicate IsDigit(c: char) {
    '0' <= c <= '9'
  }

  predicate AllDigits(s: string) {
    forall i :: 0 <= i < |s| ==> IsDigit(s[i])
  }

  function DigitChar(d: nat): (c: char)
    requires d < 10
    ensures IsDigit(c) && DigitValue(c) == d
  {
    (d + '0' as int) as char
  }

  function DigitValue(c: char): nat
    requires IsDigit(c)
  {
    (c as int - '0' as int) as nat
  }

  /** The decimal digits of `n`, most significant first, without leading zeros. */
  function NatString(n: nat): (s: string)
    ensures |s| > 0 && AllDigits(s)
  {
    if n < 10 then [DigitChar(n)] else NatString(n / 10) + [DigitChar(n % 10)]
  }

  /** The decimal rendering of `n`: a minus sign before the digits of a negative number. */
  function DecimalString(n: int): (s: string)
    ensures |s| > 0 && (s[0] == '-' || IsDigit(s[0]))
  {
    if n < 0 then "-" + NatString(-n) else NatString(n)
  }

  /** The value of a non-empty string of decimal digits. */
  function DigitsValue(s: string): nat
    requires |s| > 0 && AllDigits(s)
  {
    if |s| == 1 then DigitValue(s[0]) else DigitsValue(s[..|s| - 1]) * 10 + DigitValue(s[|s| - 1])
  }

  /** Reads back a decimal rendering: an optional minus sign followed by digits. */
  function ParseDecimal(s: string): Option<int> {
    if |s| > 1 && s[0] == '-' && AllDigits(s[1..]) then Some(0 - DigitsValue(s[1..]) as int)
    else if |s| > 0 && AllDigits(s) then Some(DigitsValue(s))
    else None
  }

  /**
   * The shape of Swift's rendering of an `Int`: digits without a leading zero
   * (except "0" itself), or a minus sign followed by such digits other than "0".
   */
  predicate CanonicalDecimal(s: string) {
    || (|s| > 0 && AllDigits(s) && (s[0] != '0' || s == "0"))
    || (|s| > 1 && s[0] == '-' && AllDigits(s[1..]) && s[1] != '0')
  }

  lemma {:induction false} NatStringLeadingDigit(n: nat)
    ensures n > 0 ==> NatString(n)[0] != '0'
  {
    if n >= 10 {
      NatStringLeadingDigit(n / 10);
    }
  }

  /** Every rendering has the canonical shape. */
  lemma DecimalStringCanonical(n: int)
    ensures CanonicalDecimal(DecimalString(n))
  {
    if n < 0 {
      NatStringLeadingDigit(-n);
      assert DecimalString(n)[1..] == NatString(-n);
    } else {
      NatStringLeadingDigit(n);
    }
  }

  lemma {:induction false} DigitsValuePositive(s: string)
    requires |s| > 0 && AllDigits(s) && s[0] != '0'
    ensures DigitsValue(s) > 0
  {
    if |s| > 1 {
      DigitsValuePositive(s[..|s| - 1]);
    }
  }

  /** A digit string without a leading zero is the rendering of its own value. */
  lemma {:induction false} NatStringOfDigits(s: string)
    requires |s| > 0 && AllDigits(s) && (s[0] != '0' || s == "0")
    ensures NatString(DigitsValue(s)) == s
  {
    if |s| > 1 {
      var prefix := s[..|s| - 1];
      NatStringOfDigits(prefix);
      DigitsValuePositive(prefix);
      assert prefix + [s[|s| - 1]] == s;
    }
  }

  /** A canonical decimal is the one rendering of the integer it parses to. */
  lemma CanonicalDecimalUnique(s: string, n: int)
    requires CanonicalDecimal(s) && ParseDecimal(s) == Some(n)
    ensures s == DecimalString(n)
  {
    if |s| > 1 && s[0] == '-' && AllDigits(s[1..]) {
      NatStringOfDigits(s[1..]);
      DigitsValuePositive(s[1..]);
      assert "-" + s[1..] == s;
    } else {
      NatStringOfDigits(s);
    }
  }

  lemma {:induction false} NatRoundTrip(n: nat)
    ensures DigitsValue(NatString(n)) == n
  {
    if n >= 10 {
      NatRoundTrip(n / 10);
      var s := NatString(n);
      assert s[..|s| - 1] == NatString(n / 10);
    }
  }

  /** Decimal rendering loses nothing: parsing it gives the integer back. */
  lemma DecimalRoundTrip(n: int)
    ensures ParseDecimal(DecimalString(n)) == Some(n)
  {
    if n < 0 {
      var digits := NatString(-n);
      NatRoundTrip(-n);
      var s := "-" + digits;
      assert s[1..] == digits;
      assert s == DecimalString(n);
    } else {
      var s := NatString(n);
      NatRoundTrip(n);
      assert IsDigit(s[0]);
      assert s == DecimalString(n);
    }
  }

  // ---------------------------------------------------------------------------
  // Properties of the two projections
  // ---------------------------------------------------------------------------

  /** The integer projection is present for integer, index and dual keys and is the carried integer. */
  lemma IntValueCarried(k: AnyCodingKey)
    ensures k.IntValue().Some? <==> (k.Int? || k.Index? || k.Both?)
    ensures k.Int? || k.Both? ==> k.IntValue() == Some(k.n)
    ensures k.Index? ==> k.IntValue() == Some(k.i)
  {
  }

  /**
   * The display string: a string or dual key shows its string, an integer key
   * the decimal rendering of its integer, an index key "Index " followed by
   * that rendering, and the superclass key "super".
   */
  lemma StringValueCases(k: AnyCodingKey)
    ensures k.Name? || k.Both? ==> k.StringValue() == k.str
    ensures k.Int? ==> ParseDecimal(k.StringValue()) == Some(k.n) && CanonicalDecimal(k.StringValue())
    ensures k.Index? ==> |k.StringValue()| > 6 && k.StringValue()[..6] == "Index "
    ensures k.Index? ==> ParseDecimal(k.StringValue()[6..]) == Some(k.i) && CanonicalDecimal(k.StringValue()[6..])
    ensures k.Super? ==> k.StringValue() == "super"
  {
    match k
    case Int(n) => DecimalRoundTrip(n); DecimalStringCanonical(n);
    case Index(i) => var _ := FromIndex(i);
    case _ =>
  }

  /** An index key and a bare integer key share their integer but never their display string. */
  lemma IndexAndIntKeysDiffer(i: int)
    ensures Index(i).IntValue() == Int(i).IntValue()
    ensures Index(i).StringValue() != Int(i).StringValue()
  {
    var d := DecimalString(i);
    assert Index(i).StringValue()[0] == 'I';
    assert Int(i).StringValue()[0] == d[0];
  }

  /** Two bare integer keys with the same display string carry the same integer. */
  lemma IntKeysInjective(a: int, b: int)
    requires Int(a).StringValue() == Int(b).StringValue()
    ensures a == b
  {
    DecimalRoundTrip(a);
    DecimalRoundTrip(b);
  }
}

=== FILE: decoder.dfy ===
/**
 * The decode engine: a dispatcher and three container kinds that walk an
 * already-materialised untyped tree top-down and rebuild a typed value.
 *
 * The functions in the first half say what decoding a node as a type yields;
 * the classes in the second half are the stateful containers, and each of
 * their methods is proved to agree with those functions.
 */
module PrimitiveDecoding {
  import opened Results
  import opened CodingKeys
  import opened Values

  /** What a decode call throws, with the coding path at which it was detected. */
  datatype DecodingError =
    | TypeMismatch(path: Path)
    | KeyNotFound(key: AnyCodingKey, path: Path)
    | ValueNotFound(path: Path)

  // ===========================================================================
  // Specification: what decoding a node as a type yields
  // ===========================================================================

  /** The entry of a mapping under a key's display string, or `keyNotFound` at `path`. */
  function Lookup(entries: map<string, Dyn>, key: AnyCodingKey, path: Path): Result<Dyn, DecodingError> {
    if key.StringValue() in entries then Ok(entries[key.StringValue()]) else Err(KeyNotFound(key, path))
  }

  /** A scalar read: the node itself when it already is a value of the scalar type. */
  function PrimitiveDecoding(d: Dyn, name: TypeName, path: Path): Result<Value, DecodingError> {
    if d.Scalar? && HasType(d.value, PrimTy(name)) then Ok(d.value) else Err(TypeMismatch(path))
  }

  /**
   * A generic single-value read: the stored value unchanged when it already
   * has the requested type, otherwise the type's own decode over the same node.
   */
  function GenericDecoding(d: Dyn, ty: Ty, path: Path): Result<Value, DecodingError>
    decreases ty, 2, 0
  {
    if d.Scalar? && HasType(d.value, ty) then Ok(d.value) else SelfDecoding(d, ty, path)
  }

  /** A type's own decode (`init(from:)`) over a decoder positioned at `d`. */
  function SelfDecoding(d: Dyn, ty: Ty, path: Path): Result<Value, DecodingError>
    decreases ty, 1, 0
  {
    match ty
    case PrimTy(name) => PrimitiveDecoding(d, name, path)
    case StructTy(name, fields) =>
      if !d.Mapping? then Err(TypeMismatch(path))
      else (
        match FieldsDecoding(d.entries, ty, |fields|, path)
        case Ok(vs) => Ok(StructVal(name, vs))
        case Err(e) => Err(e))
    case ArrayTy(_) =>
      if !d.Sequence? then Err(TypeMismatch(path))
      else (
        match ElementsDecoding(d.items, ty, |d.items|, path)
        case Ok(vs) => Ok(ArrayVal(vs))
        case Err(e) => Err(e))
  }

  /** The first `n` fields of a struct, read in declaration order from a keyed container at `path`. */
  function FieldsDecoding(entries: map<string, Dyn>, ty: Ty, n: nat, path: Path): Result<seq<Value>, DecodingError>
    requires ty.StructTy? && n <= |ty.fields|
    decreases ty, 0, n
  {
    if n == 0 then Ok([])
    else
      match FieldsDecoding(entries, ty, n - 1, path)
      case Err(e) => Err(e)
      case Ok(vs) =>
        var key := Name(ty.fields[n - 1].name);
        match Lookup(entries, key, path)
        case Err(e) => Err(e)
        case Ok(d) =>
          match GenericDecoding(d, ty.fields[n - 1].ty, path + [key])
          case Err(e) => Err(e)
          case Ok(v) => Ok(vs + [v])
  }

  /** The first `n` elements of an array, read in order from an unkeyed container at `path`. */
  function ElementsDecoding(items: seq<Dyn>, ty: Ty, n: nat, path: Path): Result<seq<Value>, DecodingError>
    requires ty.ArrayTy? && n <= |items|
    decreases ty, 0, n
  {
    if n == 0 then Ok([])
    else
      match ElementsDecoding(items, ty, n - 1, path)
      case Err(e) => Err(e)
      case Ok(vs) =>
        match GenericDecoding(items[n - 1], ty.elem, path + [Index(n - 1)])
        case Err(e) => Err(e)
        case Ok(v) => Ok(vs + [v])
  }

  // ===========================================================================
  // The dispatcher and the containers
  // ===========================================================================

  /** The decoder handed to a type's own decode: a node, its path and three container factories. */
  class Decoder {
    const value: Dyn
    const codingPath: Path

    constructor (value: Dyn, codingPath: Path)
      ensures this.value == value && this.codingPath == codingPath
    {
      this.value := value;
      this.codingPath := codingPath;
    }

    method Container() returns (r: Result<KeyedDecodingContainer, DecodingError>)
      ensures !value.Mapping? ==> r == Err(TypeMismatch(codingPath))
      ensures value.Mapping? ==> r.Ok? && fresh(r.value)
      ensures r.Ok? ==> r.value.entries == value.entries && r.value.codingPath == codingPath
    {
      r := KeyedDecodingContainer.Open(value, codingPath);
    }

    method UnkeyedContainer() returns (r: Result<UnkeyedDecodingContainer, DecodingError>)
      ensures !value.Sequence? ==> r == Err(TypeMismatch(codingPath))
      ensures value.Sequence? ==> r.Ok? && fresh(r.value) && r.value.Valid() && r.value.currentIndex == 0
      ensures r.Ok? ==> r.value.items == value.items && r.value.codingPath == codingPath
    {
      r := UnkeyedDecodingContainer.Open(value, codingPath);
    }

    method SingleValueContainer() returns (c: SingleValueDecodingContainer)
      ensures fresh(c) && c.value == value && c.codingPath == codingPath && !c.isConsumed
    {
      c := new SingleValueDecodingContainer(value, codingPath);
    }
  }

  /** A keyed container: a mapping read key by key. */
  class KeyedDecodingContainer {
    const entries: map<string, Dyn>
    const codingPath: Path

    constructor (entries: map<string, Dyn>, codingPath: Path)
      ensures this.entries == entries && this.codingPath == codingPath
    {
      this.entries := entries;
      this.codingPath := codingPath;
    }

    /** The throwing initialiser: only a mapping can back a keyed container. */
    static method Open(value: Dyn, codingPath: Path) returns (r: Result<KeyedDecodingContainer, DecodingError>)
      ensures !value.Mapping? ==> r == Err(TypeMismatch(codingPath))
      ensures value.Mapping? ==> r.Ok? && fresh(r.value)
      ensures r.Ok? ==> r.value.entries == value.entries && r.value.codingPath == codingPath
    {
      if !value.Mapping? {
        return Err(TypeMismatch(codingPath));
      }
      var c := new KeyedDecodingContainer(value.entries, codingPath);
      r := Ok(c);
    }

    /** Whether the mapping has an entry under the key's display string, even an explicitly nil one. */
    function Contains(key: AnyCodingKey): (c: bool)
      ensures c <==> Lookup(entries, key, codingPath).Ok?
      ensures !c ==> Lookup(entries, key, codingPath) == Err(KeyNotFound(key, codingPath))
    {
      key.StringValue() in entries
    }

    /** The keys of the mapping that the key type accepts; `keyInit` is the key type's initialiser from a string. */
    function AllKeys(keyInit: string -> Option<AnyCodingKey>): (keys: set<AnyCodingKey>)
      ensures forall k :: k in keys <==> exists s :: s in entries && keyInit(s) == Some(k)
    {
      set s | s in entries && keyInit(s).Some? :: keyInit(s).value
    }

    /** Every key listed by AllKeys is contained, for any key type whose string round-trips. */
    lemma AllKeysAreContained(keyInit: string -> Option<AnyCodingKey>)
      requires forall s :: keyInit(s).Some? ==> keyInit(s).value.StringValue() == s
      ensures forall k :: k in AllKeys(keyInit) ==> Contains(k)
    {
      forall k | k in AllKeys(keyInit)
        ensures Contains(k)
      {
        var s :| s in entries && keyInit(s) == Some(k);
      }
    }

    /** With the path key's own initialiser, no key of the mapping is dropped. */
    lemma AllKeysOfAnyCodingKey()
      ensures AllKeys(FromStringValue) == set s | s in entries :: Name(s)
    {
    }

    method DecodeNil(key: AnyCodingKey) returns (r: Result<bool, DecodingError>)
      ensures !Contains(key) ==> r == Err(KeyNotFound(key, codingPath))
      ensures Contains(key) ==> r == Ok(entries[key.StringValue()] == Absent)
    {
      var d :- Lookup(entries, key, codingPath);
      var c := new SingleValueDecodingContainer(d, codingPath + [key]);
      r := Ok(c.DecodeNil());
    }

    /** The scalar overloads (`decode(Int.self, forKey:)` and the like). */
    method DecodePrimitive(name: TypeName, key: AnyCodingKey) returns (r: Result<Value, DecodingError>)
      ensures !Contains(key) ==> r == Err(KeyNotFound(key, codingPath))
      ensures Contains(key) ==> r == PrimitiveDecoding(entries[key.StringValue()], name, codingPath + [key])
    {
      var d :- Lookup(entries, key, codingPath);
      var c := new SingleValueDecodingContainer(d, codingPath + [key]);
      r := c.DecodePrimitive(name);
    }

    /** The generic `decode(T.self, forKey:)`. */
    method Decode(ty: Ty, key: AnyCodingKey) returns (r: Result<Value, DecodingError>)
      ensures !Contains(key) ==> r == Err(KeyNotFound(key, codingPath))
      ensures Contains(key) ==> r == GenericDecoding(entries[key.StringValue()], ty, codingPath + [key])
      decreases ty, 3
    {
      var d :- Lookup(entries, key, codingPath);
      var c := new SingleValueDecodingContainer(d, codingPath + [key]);
      r := c.Decode(ty);
    }

    method NestedContainer(key: AnyCodingKey) returns (r: Result<KeyedDecodingContainer, DecodingError>)
      ensures !Contains(key) ==> r == Err(KeyNotFound(key, codingPath))
      ensures Contains(key) && !entries[key.StringValue()].Mapping? ==> r == Err(TypeMismatch(codingPath + [key]))
      ensures Contains(key) && entries[key.StringValue()].Mapping? ==> r.Ok? && fresh(r.value)
      ensures r.Ok? ==> r.value.entries == entries[key.StringValue()].entries && r.value.codingPath == codingPath + [key]
    {
      var d :- Lookup(entries, key, codingPath);
      r := KeyedDecodingContainer.Open(d, codingPath + [key]);
    }

    method NestedUnkeyedContainer(key: AnyCodingKey) returns (r: Result<UnkeyedDecodingContainer, DecodingError>)
      ensures !Contains(key) ==> r == Err(KeyNotFound(key, codingPath))
      ensures Contains(key) && !entries[key.StringValue()].Sequence? ==> r == Err(TypeMismatch(codingPath + [key]))
      ensures Contains(key) && entries[key.StringValue()].Sequence? ==> r.Ok? && fresh(r.value) && r.value.Valid()
      ensures r.Ok? ==> r.value.items == entries[key.StringValue()].items && r.value.codingPath == codingPath + [key]
      ensures r.Ok? ==> r.value.currentIndex == 0
    {
      var d :- Lookup(entries, key, codingPath);
      r := UnkeyedDecodingContainer.Open(d, codingPath + [key]);
    }

    /** A decoder for the superclass, over the entry under the reserved key "super". */
    method SuperDecoder() returns (r: Result<Decoder, DecodingError>)
      ensures !Contains(Super) ==> r == Err(KeyNotFound(Super, codingPath))
      ensures Contains(Super) ==> r.Ok? && fresh(r.value)
      ensures r.Ok? ==> r.value.value == entries["super"] && r.value.codingPath == codingPath + [Super]
    {
      r := SuperDecoderForKey(Super);
    }

    method SuperDecoderForKey(key: AnyCodingKey) returns (r: Result<Decoder, DecodingError>)
      ensures !Contains(key) ==> r == Err(KeyNotFound(key, codingPath))
      ensures Contains(key) ==> r.Ok? && fresh(r.value)
      ensures r.Ok? ==> r.value.value == entries[key.StringValue()] && r.value.codingPath == codingPath + [key]
    {
      var d :- Lookup(entries, key, codingPath);
      var decoder := new Decoder(d, codingPath + [key]);
      r := Ok(decoder);
    }
  }

  /** An unkeyed container: a sequence read front to back through a cursor. */
  class UnkeyedDecodingContainer {
    const items: seq<Dyn>
    const codingPath: Path
    var currentIndex: nat

    /** The cursor never passes the end. */
    ghost predicate Valid()
      reads this
    {
      currentIndex <= |items|
    }

    constructor (items: seq<Dyn>, codingPath: Path)
      ensures this.items == items && this.codingPath == codingPath
      ensures currentIndex == 0 && Valid()
    {
      this.items := items;
      this.codingPath := codingPath;
      currentIndex := 0;
    }

    /** The throwing initialiser: only a sequence can back an unkeyed container. */
    static method Open(value: Dyn, codingPath: Path) returns (r: Result<UnkeyedDecodingContainer, DecodingError>)
      ensures !value.Sequence? ==> r == Err(TypeMismatch(codingPath))
      ensures value.Sequence? ==> r.Ok? && fresh(r.value) && r.value.Valid() && r.value.currentIndex == 0
      ensures r.Ok? ==> r.value.items == value.items && r.value.codingPath == codingPath
    {
      if !value.Sequence? {
        return Err(TypeMismatch(codingPath));
      }
      var c := new UnkeyedDecodingContainer(value.items, codingPath);
      r := Ok(c);
    }

    /** The element count; optional in the protocol, but always known for an in-memory sequence. */
    function Count(): (n: Option<nat>)
      ensures n == Some(|items|)
    {
      Some(|items|)
    }

    function IsAtEnd(): (atEnd: bool)
      reads this
      ensures Valid() ==> (atEnd <==> Count() == Some(currentIndex))
    {
      currentIndex >= |items|
    }

    /**
     * Consumes the element under the cursor and gives it with the path of its
     * child container; at the end it throws `valueNotFound` and moves nothing.
     */
    method Next() returns (r: Result<(Dyn, Path), DecodingError>)
      requires Valid()
      modifies this
      ensures Valid()
      ensures old(IsAtEnd()) ==> r == Err(ValueNotFound(codingPath)) && currentIndex == old(currentIndex)
      ensures !old(IsAtEnd()) ==> currentIndex == old(currentIndex) + 1
      ensures !old(IsAtEnd()) ==> r == Ok((items[old(currentIndex)], codingPath + [Index(old(currentIndex))]))
    {
      var key := Index(currentIndex);
      if IsAtEnd() {
        return Err(ValueNotFound(codingPath));
      }
      var d := items[currentIndex];
      currentIndex := currentIndex + 1;
      r := Ok((d, codingPath + [key]));
    }

    /** `decodeNil()` as written: the element is consumed whether or not it is nil. */
    method DecodeNilAsWritten() returns (r: Result<bool, DecodingError>)
      requires Valid()
      modifies this
      ensures Valid()
      ensures old(IsAtEnd()) ==> r == Err(ValueNotFound(codingPath)) && currentIndex == old(currentIndex)
      ensures !old(IsAtEnd()) ==> r == Ok(items[old(currentIndex)] == Absent)
      ensures !old(IsAtEnd()) ==> currentIndex == old(currentIndex) + 1
    {
      var next :- Next();
      var c := new SingleValueDecodingContainer(next.0, next.1);
      r := Ok(c.DecodeNil());
    }

    /** `decodeNil()` as the unkeyed container contract intends: only a nil element is consumed. */
    method DecodeNil() returns (r: Result<bool, DecodingError>)
      requires Valid()
      modifies this
      ensures Valid()
      ensures old(IsAtEnd()) ==> r == Err(ValueNotFound(codingPath)) && currentIndex == old(currentIndex)
      ensures !old(IsAtEnd()) ==> r == Ok(items[old(currentIndex)] == Absent)
      ensures !old(IsAtEnd()) ==> currentIndex == old(currentIndex) + (if items[old(currentIndex)] == Absent then 1 else 0)
    {
      if IsAtEnd() {
        return Err(ValueNotFound(codingPath));
      }
      var c := new SingleValueDecodingContainer(items[currentIndex], codingPath + [Index(currentIndex)]);
      var isNil := c.DecodeNil();
      if isNil {
        currentIndex := currentIndex + 1;
      }
      r := Ok(isNil);
    }

    /** The scalar overloads (`decode(Int.self)` and the like). */
    method DecodePrimitive(name: TypeName) returns (r: Result<Value, DecodingError>)
      requires Valid()
      modifies this
      ensures Valid()
      ensures old(IsAtEnd()) ==> r == Err(ValueNotFound(codingPath)) && currentIndex == old(currentIndex)
      ensures !old(IsAtEnd()) ==> currentIndex == old(currentIndex) + 1
      ensures !old(IsAtEnd()) ==>
        r == PrimitiveDecoding(items[old(currentIndex)], name, codingPath + [Index(old(currentIndex))])
    {
      var next :- Next();
      var c := new SingleValueDecodingContainer(next.0, next.1);
      r := c.DecodePrimitive(name);
    }

    /** The generic `decode(T.self)`. */
    method Decode(ty: Ty) returns (r: Result<Value, DecodingError>)
      requires Valid()
      modifies this
      ensures Valid()
      ensures old(IsAtEnd()) ==> r == Err(ValueNotFound(codingPath)) && currentIndex == old(currentIndex)
      ensures !old(IsAtEnd()) ==> currentIndex == old(currentIndex) + 1
      ensures !old(IsAtEnd()) ==>
        r == GenericDecoding(items[old(currentIndex)], ty, codingPath + [Index(old(currentIndex))])
      decreases ty, 3
    {
      var next :- Next();
      var c := new SingleValueDecodingContainer(next.0, next.1);
      r := c.Decode(ty);
    }

    /** A nested keyed container over the next element; the element is consumed even when that fails. */
    method NestedContainer() returns (r: Result<KeyedDecodingContainer, DecodingError>)
      requires Valid()
      modifies this
      ensures Valid()
      ensures old(IsAtEnd()) ==> r == Err(ValueNotFound(codingPath)) && currentIndex == old(currentIndex)
      ensures !old(IsAtEnd()) ==> currentIndex == old(currentIndex) + 1
      ensures !old(IsAtEnd()) && !items[old(currentIndex)].Mapping? ==>
        r == Err(TypeMismatch(codingPath + [Index(old(currentIndex))]))
      ensures !old(IsAtEnd()) && items[old(currentIndex)].Mapping? ==> r.Ok? && fresh(r.value)
      ensures r.Ok? ==> r.value.entries == items[old(currentIndex)].entries
      ensures r.Ok? ==> r.value.codingPath == codingPath + [Index(old(currentIndex))]
    {
      var next :- Next();
      r := KeyedDecodingContainer.Open(next.0, next.1);
    }

    /** A nested unkeyed container over the next element; the element is consumed even when that fails. */
    method NestedUnkeyedContainer() returns (r: Result<UnkeyedDecodingContainer, DecodingError>)
      requires Valid()
      modifies this
      ensures Valid()
      ensures old(IsAtEnd()) ==> r == Err(ValueNotFound(codingPath)) && currentIndex == old(currentIndex)
      ensures !old(IsAtEnd()) ==> currentIndex == old(currentIndex) + 1
      ensures !old(IsAtEnd()) && !items[old(currentIndex)].Sequence? ==>
        r == Err(TypeMismatch(codingPath + [Index(old(currentIndex))]))
      ensures !old(IsAtEnd()) && items[old(currentIndex)].Sequence? ==> r.Ok? && fresh(r.value)
      ensures r.Ok? ==> r.value.Valid() && r.value.currentIndex == 0
      ensures r.Ok? ==> r.value.items == items[old(currentIndex)].items
      ensures r.Ok? ==> r.value.codingPath == codingPath + [Index(old(currentIndex))]
    {
      var next :- Next();
      r := UnkeyedDecodingContainer.Open(next.0, next.1);
    }

    method SuperDecoder() returns (r: Result<Decoder, DecodingError>)
      requires Valid()
      modifies this
      ensures Valid()
      ensures old(IsAtEnd()) ==> r == Err(ValueNotFound(codingPath)) && currentIndex == old(currentIndex)
      ensures !old(IsAtEnd()) ==> currentIndex == old(currentIndex) + 1 && r.Ok? && fresh(r.value)
      ensures r.Ok? ==> r.value.value == items[old(currentIndex)]
      ensures r.Ok? ==> r.value.codingPath == codingPath + [Index(old(currentIndex))]
    {
      var next :- Next();
      var decoder := new Decoder(next.0, next.1);
      r := Ok(decoder);
    }
  }

  /** A single-value container: one node that may be consumed once. */
  class SingleValueDecodingContainer {
    const value: Dyn
    const codingPath: Path
    var isConsumed: bool

    constructor (value: Dyn, codingPath: Path)
      ensures this.value == value && this.codingPath == codingPath && !isConsumed
    {
      this.value := value;
      this.codingPath := codingPath;
      isConsumed := false;
    }

    /** Whether the node is nil; it reads no state and so never consumes the value. */
    function DecodeNil(): (isNil: bool)
      ensures isNil <==> value == Absent
    {
      value == Absent
    }

    /** A node that reads as nil is a value of no type: every read of it throws typeMismatch. */
    lemma NilReadsAsNoValue(ty: Ty)
      requires DecodeNil()
      ensures GenericDecoding(value, ty, codingPath) == Err(TypeMismatch(codingPath))
      ensures ty.PrimTy? ==> PrimitiveDecoding(value, ty.name, codingPath) == Err(TypeMismatch(codingPath))
    {
    }

    /** A scalar read; the value counts as consumed even when the type check then fails. */
    method DecodePrimitive(name: TypeName) returns (r: Result<Value, DecodingError>)
      modifies this
      ensures isConsumed
      ensures old(isConsumed) ==> r == Err(ValueNotFound(codingPath))
      ensures !old(isConsumed) ==> r == PrimitiveDecoding(value, name, codingPath)
    {
      if isConsumed {
        return Err(ValueNotFound(codingPath));
      }
      isConsumed := true;
      if !(value.Scalar? && HasType(value.value, PrimTy(name))) {
        return Err(TypeMismatch(codingPath));
      }
      r := Ok(value.value);
    }

    /** The generic read: pass the stored value through, or run the type's own decode on the same node. */
    method Decode(ty: Ty) returns (r: Result<Value, DecodingError>)
      modifies this
      ensures isConsumed
      ensures old(isConsumed) ==> r == Err(ValueNotFound(codingPath))
      ensures !old(isConsumed) ==> r == GenericDecoding(value, ty, codingPath)
      decreases ty, 2
    {
      if isConsumed {
        return Err(ValueNotFound(codingPath));
      }
      isConsumed := true;
      if value.Scalar? && HasType(value.value, ty) {
        return Ok(value.value);
      }
      var decoder := new Decoder(value, codingPath);
      r := DecodeSelf(ty, decoder);
    }
  }

  // ===========================================================================
  // The types' own decode, and the top-level entry point
  // ===========================================================================

  /**
   * `init(from: decoder)` of the closed family of types: a scalar reads its
   * single value, a struct reads its fields by key in declaration order, an
   * array reads elements until its unkeyed container is at its end.
   */
  method DecodeSelf(ty: Ty, decoder: Decoder) returns (r: Result<Value, DecodingError>)
    ensures r == SelfDecoding(decoder.value, ty, decoder.codingPath)
    decreases ty, 1
  {
    match ty
    case PrimTy(name) =>
      var c := decoder.SingleValueContainer();
      r := c.DecodePrimitive(name);
    case StructTy(name, fields) =>
      var c :- decoder.Container();
      var vs: seq<Value> := [];
      var i := 0;
      while i < |fields|
        invariant 0 <= i <= |fields|
        invariant FieldsDecoding(c.entries, ty, i, c.codingPath) == Ok(vs)
      {
        var field := c.Decode(fields[i].ty, Name(fields[i].name));
        if field.Err? {
          FieldsErrorPersists(c.entries, ty, i + 1, |fields|, c.codingPath);
          return Err(field.error);
        }
        vs := vs + [field.value];
        i := i + 1;
      }
      r := Ok(StructVal(name, vs));
    case ArrayTy(elem) =>
      var c :- decoder.UnkeyedContainer();
      var vs: seq<Value> := [];
      while !c.IsAtEnd()
        invariant c.Valid()
        invariant ElementsDecoding(c.items, ty, c.currentIndex, c.codingPath) == Ok(vs)
        decreases |c.items| - c.currentIndex
      {
        var element := c.Decode(elem);
        if element.Err? {
          ElementsErrorPersists(c.items, ty, c.currentIndex, |c.items|, c.codingPath);
          return Err(element.error);
        }
        vs := vs + [element.value];
      }
      r := Ok(ArrayVal(vs));
  }

  /** Top-level decode: a generic single-value read of the whole tree, starting from the empty path. */
  method Decode(ty: Ty, value: Dyn) returns (r: Result<Value, DecodingError>)
    ensures r == GenericDecoding(value, ty, [])
  {
    var c := new SingleValueDecodingContainer(value, []);
    r := c.Decode(ty);
  }

  /**
   * The decode of a type that reads its single value twice as a String: the
   * second read always fails, with `valueNotFound` when the first one succeeded.
   */
  method DecodeStringTwice(decoder: Decoder) returns (r: Result<(), DecodingError>)
    ensures PrimitiveDecoding(decoder.value, "String", decoder.codingPath).Ok? ==>
      r == Err(ValueNotFound(decoder.codingPath))
    ensures PrimitiveDecoding(decoder.value, "String", decoder.codingPath).Err? ==>
      r == Err(TypeMismatch(decoder.codingPath))
  {
    var c := decoder.SingleValueContainer();
    var first := c.DecodePrimitive("String");
    if first.Err? {
      return Err(first.error);
    }
    var second := c.DecodePrimitive("String");
    r := if second.Err? then Err(second.error) else Ok(());
  }

  /**
   * Reading to the end: from the cursor's position, an N-element sequence
   * allows exactly N reads, each giving the next element with its index path,
   * and the read after them throws valueNotFound.
   */
  method ReadToEnd(c: UnkeyedDecodingContainer)
    returns (count: nat, ghost steps: seq<Result<(Dyn, Path), DecodingError>>, last: Result<(Dyn, Path), DecodingError>)
    requires c.Valid()
    modifies c
    ensures count == |c.items| - old(c.currentIndex) && |steps| == count
    ensures forall j :: 0 <= j < count ==>
      steps[j] == Ok((c.items[old(c.currentIndex) + j], c.codingPath + [Index(old(c.currentIndex) + j)]))
    ensures c.Valid() && c.currentIndex == |c.items|
    ensures c.IsAtEnd() && last == Err(ValueNotFound(c.codingPath))
  {
    count := 0;
    steps := [];
    while !c.IsAtEnd()
      invariant c.Valid() && old(c.currentIndex) + count == c.currentIndex && |steps| == count
      invariant forall j :: 0 <= j < count ==>
        steps[j] == Ok((c.items[old(c.currentIndex) + j], c.codingPath + [Index(old(c.currentIndex) + j)]))
      decreases |c.items| - c.currentIndex
    {
      var next := c.Next();
      steps := steps + [next];
      count := count + 1;
    }
    last := c.Next();
  }

  /**
   * Probing an element with the unkeyed `decodeNil()` as written, then reading:
   * a non-nil first element is skipped and the read gets the second one.
   */
  method ProbeThenDecodeAsWritten(items: seq<Dyn>, ty: Ty) returns (r: Result<Value, DecodingError>)
    requires |items| > 0 && items[0] != Absent
    ensures |items| == 1 ==> r == Err(ValueNotFound([]))
    ensures |items| > 1 ==> r == GenericDecoding(items[1], ty, [Index(1)])
  {
    var c := new UnkeyedDecodingContainer(items, []);
    var isNil := c.DecodeNilAsWritten();
    r := c.Decode(ty);
    assert [] + [Index(1)] == [Index(1)];
  }

  /** The same probe with the corrected `decodeNil()`: the read gets the first element. */
  method ProbeThenDecode(items: seq<Dyn>, ty: Ty) returns (r: Result<Value, DecodingError>)
    requires |items| > 0 && items[0] != Absent
    ensures r == GenericDecoding(items[0], ty, [Index(0)])
  {
    var c := new UnkeyedDecodingContainer(items, []);
    var isNil := c.DecodeNil();
    r := c.Decode(ty);
    assert [] + [Index(0)] == [Index(0)];
  }

  // ===========================================================================
  // Properties of the specification
  // ===========================================================================

  /** One more field read: a successful lookup and read extend the values read so far by one. */
  lemma FieldsDecodingStep(entries: map<string, Dyn>, ty: Ty, n: nat, path: Path, vs: seq<Value>, d: Dyn, v: Value)
    requires ty.StructTy? && 0 < n <= |ty.fields|
    requires FieldsDecoding(entries, ty, n - 1, path) == Ok(vs)
    requires Lookup(entries, Name(ty.fields[n - 1].name), path) == Ok(d)
    requires GenericDecoding(d, ty.fields[n - 1].ty, path + [Name(ty.fields[n - 1].name)]) == Ok(v)
    ensures FieldsDecoding(entries, ty, n, path) == Ok(vs + [v])
  {
  }

  /** One more element read: a successful read extends the values read so far by one. */
  lemma ElementsDecodingStep(items: seq<Dyn>, ty: Ty, n: nat, path: Path, vs: seq<Value>, v: Value)
    requires ty.ArrayTy? && 0 < n <= |items|
    requires ElementsDecoding(items, ty, n - 1, path) == Ok(vs)
    requires GenericDecoding(items[n - 1], ty.elem, path + [Index(n - 1)]) == Ok(v)
    ensures ElementsDecoding(items, ty, n, path) == Ok(vs + [v])
  {
  }

  /** Once a prefix of the fields fails, every longer prefix fails with the same error. */
  lemma {:induction false} FieldsErrorPersists(entries: map<string, Dyn>, ty: Ty, n: nat, m: nat, path: Path)
    requires ty.StructTy? && n <= m <= |ty.fields|
    requires FieldsDecoding(entries, ty, n, path).Err?
    ensures FieldsDecoding(entries, ty, m, path) == FieldsDecoding(entries, ty, n, path)
    decreases m
  {
    if m > n {
      FieldsErrorPersists(entries, ty, n, m - 1, path);
    }
  }

  /** Once a prefix of the elements fails, every longer prefix fails with the same error. */
  lemma {:induction false} ElementsErrorPersists(items: seq<Dyn>, ty: Ty, n: nat, m: nat, path: Path)
    requires ty.ArrayTy? && n <= m <= |items|
    requires ElementsDecoding(items, ty, n, path).Err?
    ensures ElementsDecoding(items, ty, m, path) == ElementsDecoding(items, ty, n, path)
    decreases m
  {
    if m > n {
      ElementsErrorPersists(items, ty, n, m - 1, path);
    }
  }

  /** Whatever decoding produces is a value of the requested type. */
  lemma {:induction false} GenericDecodingHasType(d: Dyn, ty: Ty, path: Path)
    ensures GenericDecoding(d, ty, path).Ok? ==> HasType(GenericDecoding(d, ty, path).value, ty)
    decreases ty, 2, 0
  {
    if !(d.Scalar? && HasType(d.value, ty)) {
      SelfDecodingHasType(d, ty, path);
    }
  }

  lemma {:induction false} SelfDecodingHasType(d: Dyn, ty: Ty, path: Path)
    ensures SelfDecoding(d, ty, path).Ok? ==> HasType(SelfDecoding(d, ty, path).value, ty)
    decreases ty, 1, 0
  {
    match ty
    case PrimTy(_) =>
    case StructTy(_, fields) =>
      if d.Mapping? {
        FieldsDecodingHaveTypes(d.entries, ty, |fields|, path);
      }
    case ArrayTy(_) =>
      if d.Sequence? {
        ElementsDecodingHaveType(d.items, ty, |d.items|, path);
      }
  }

  lemma {:induction false} FieldsDecodingHaveTypes(entries: map<string, Dyn>, ty: Ty, n: nat, path: Path)
    requires ty.StructTy? && n <= |ty.fields|
    ensures var r := FieldsDecoding(entries, ty, n, path);
      r.Ok? ==> |r.value| == n && forall i :: 0 <= i < n ==> HasType(r.value[i], ty.fields[i].ty)
    decreases ty, 0, n
  {
    if n > 0 {
      FieldsDecodingHaveTypes(entries, ty, n - 1, path);
      var key := Name(ty.fields[n - 1].name);
      if key.StringValue() in entries {
        GenericDecodingHasType(entries[key.StringValue()], ty.fields[n - 1].ty, path + [key]);
      }
    }
  }

  lemma {:induction false} ElementsDecodingHaveType(items: seq<Dyn>, ty: Ty, n: nat, path: Path)
    requires ty.ArrayTy? && n <= |items|
    ensures var r := ElementsDecoding(items, ty, n, path);
      r.Ok? ==> |r.value| == n && forall i :: 0 <= i < n ==> HasType(r.value[i], ty.elem)
    decreases ty, 0, n
  {
    if n > 0 {
      ElementsDecodingHaveType(items, ty, n - 1, path);
      GenericDecodingHasType(items[n - 1], ty.elem, path + [Index(n - 1)]);
    }
  }

  /** Every error is reported at the path where decoding started or somewhere below it. */
  lemma {:induction false} GenericDecodingErrorPath(d: Dyn, ty: Ty, path: Path)
    ensures GenericDecoding(d, ty, path).Err? ==> path <= GenericDecoding(d, ty, path).error.path
    decreases ty, 2, 0
  {
    if !(d.Scalar? && HasType(d.value, ty)) {
      SelfDecodingErrorPath(d, ty, path);
    }
  }

  lemma {:induction false} SelfDecodingErrorPath(d: Dyn, ty: Ty, path: Path)
    ensures SelfDecoding(d, ty, path).Err? ==> path <= SelfDecoding(d, ty, path).error.path
    decreases ty, 1, 0
  {
    match ty
    case PrimTy(_) =>
    case StructTy(_, fields) =>
      if d.Mapping? {
        FieldsDecodingErrorPath(d.entries, ty, |fields|, path);
      }
    case ArrayTy(_) =>
      if d.Sequence? {
        ElementsDecodingErrorPath(d.items, ty, |d.items|, path);
      }
  }

  lemma {:induction false} FieldsDecodingErrorPath(entries: map<string, Dyn>, ty: Ty, n: nat, path: Path)
    requires ty.StructTy? && n <= |ty.fields|
    ensures FieldsDecoding(entries, ty, n, path).Err? ==> path <= FieldsDecoding(entries, ty, n, path).error.path
    decreases ty, 0, n
  {
    if n > 0 {
      FieldsDecodingErrorPath(entries, ty, n - 1, path);
      var key := Name(ty.fields[n - 1].name);
      if key.StringValue() in entries {
        var child := entries[key.StringValue()];
        GenericDecodingErrorPath(child, ty.fields[n - 1].ty, path + [key]);
        var r := GenericDecoding(child, ty.fields[n - 1].ty, path + [key]);
        if r.Err? {
          assert path <= path + [key] <= r.error.path;
        }
      }
    }
  }

  lemma {:induction false} ElementsDecodingErrorPath(items: seq<Dyn>, ty: Ty, n: nat, path: Path)
    requires ty.ArrayTy? && n <= |items|
    ensures ElementsDecoding(items, ty, n, path).Err? ==> path <= ElementsDecoding(items, ty, n, path).error.path
    decreases ty, 0, n
  {
    if n > 0 {
      ElementsDecodingErrorPath(items, ty, n - 1, path);
      var key := Index(n - 1);
      GenericDecodingErrorPath(items[n - 1], ty.elem, path + [key]);
      var r := GenericDecoding(items[n - 1], ty.elem, path + [key]);
      if r.Err? {
        assert path <= path + [key] <= r.error.path;
      }
    }
  }

  /**
   * A struct whose field is missing from the mapping fails with `keyNotFound`
   * naming that field, at the struct's own path, when every earlier field decodes.
   */
  lemma MissingFieldIsKeyNotFound(entries: map<string, Dyn>, ty: Ty, j: nat, path: Path)
    requires ty.StructTy? && j < |ty.fields|
    requires FieldsDecoding(entries, ty, j, path).Ok?
    requires ty.fields[j].name !in entries
    ensures SelfDecoding(Mapping(entries), ty, path) == Err(KeyNotFound(Name(ty.fields[j].name), path))
  {
    FieldsErrorPersists(entries, ty, j + 1, |ty.fields|, path);
  }

  /** Decoding an object with a Date and a colour from a mapping that holds exactly those. */
  lemma DecodesSimpleObject(date: Payload, colour: Payload)
    ensures var ty := StructTy("SimpleObject", [Field("date", PrimTy("Date")), Field("colour", PrimTy("String"))]);
      var tree := Mapping(map["date" := Scalar(PrimVal("Date", date)), "colour" := Scalar(PrimVal("String", colour))]);
      GenericDecoding(tree, ty, []) == Ok(StructVal("SimpleObject", [PrimVal("Date", date), PrimVal("String", colour)]))
  {
    var ty := StructTy("SimpleObject", [Field("date", PrimTy("Date")), Field("colour", PrimTy("String"))]);
    var entries := map["date" := Scalar(PrimVal("Date", date)), "colour" := Scalar(PrimVal("String", colour))];
    assert Lookup(entries, Name("date"), []) == Ok(Scalar(PrimVal("Date", date)));
    assert [] + [PrimVal("Date", date)] == [PrimVal("Date", date)];
    assert FieldsDecoding(entries, ty, 1, []) == Ok([PrimVal("Date", date)]);
    assert Lookup(entries, Name("colour"), []) == Ok(Scalar(PrimVal("String", colour)));
    assert GenericDecoding(Scalar(PrimVal("String", colour)), PrimTy("String"), [] + [Name("colour")])
      == Ok(PrimVal("String", colour));
    assert [PrimVal("Date", date)] + [PrimVal("String", colour)] == [PrimVal("Date", date), PrimVal("String", colour)];
    assert FieldsDecoding(entries, ty, 2, []) == Ok([PrimVal("Date", date), PrimVal("String", colour)]);
  }
}

=== FILE: encoder.dfy ===
/**
 * The encode engine: a dispatcher and three container kinds that walk a typed
 * value top-down and assemble the output tree bottom-up. Each container, when
 * its owner is done with it, finishes exactly once and hands its node to the
 * one slot it was opened for (its completion).
 *
 * The functions in the first half say what tree a value encodes to; the
 * classes in the second half are the stateful containers, and each of their
 * methods is proved to agree with those functions.
 */
module PrimitiveEncoding {
  import opened Results
  import opened CodingKeys
  import opened Values

  /** The output tree: keyed nodes are ordered lists of pairs, duplicates allowed. */
  datatype Encoded =
    | Nil
    | Single(value: Value)
    | Keyed(entries: seq<(AnyCodingKey, Encoded)>)
    | Unkeyed(items: seq<Encoded>)

  /** What encoding throws; `Unimplemented` is declared by the engine but never thrown. */
  datatype EncodingError = Unimplemented | FoundNil

  // ===========================================================================
  // Specification: the tree a value encodes to
  // ===========================================================================

  /**
   * A generic encode of a `T`: a pass-through type (exact type match against
   * `primitiveTypes`) is stored as-is, any other type encodes itself.
   */
  function GenericEncoding(v: Value, ty: Ty, primitiveTypes: seq<Ty>): Encoded
    requires HasType(v, ty)
    decreases ty, 2, 0
  {
    if ty in primitiveTypes then Single(v) else SelfEncoding(v, ty, primitiveTypes)
  }

  /** A type's own encode (`encode(to:)`) into a fresh encoder. */
  function SelfEncoding(v: Value, ty: Ty, primitiveTypes: seq<Ty>): Encoded
    requires HasType(v, ty)
    decreases ty, 1, 0
  {
    match ty
    case PrimTy(_) => Single(v)
    case StructTy(_, fields) => Keyed(FieldsEncoding(v, ty, primitiveTypes, |fields|))
    case ArrayTy(_) => Unkeyed(ElementsEncoding(v, ty, primitiveTypes, |v.elems|))
  }

  /** The pairs a struct's first `n` fields append to its keyed container. */
  function FieldsEncoding(v: Value, ty: Ty, primitiveTypes: seq<Ty>, n: nat): seq<(AnyCodingKey, Encoded)>
    requires ty.StructTy? && HasType(v, ty) && n <= |ty.fields|
    decreases ty, 0, n
  {
    if n == 0 then []
    else
      FieldsEncoding(v, ty, primitiveTypes, n - 1)
      + [(Name(ty.fields[n - 1].name), GenericEncoding(v.fields[n - 1], ty.fields[n - 1].ty, primitiveTypes))]
  }

  /** The nodes an array's first `n` elements append to its unkeyed container. */
  function ElementsEncoding(v: Value, ty: Ty, primitiveTypes: seq<Ty>, n: nat): seq<Encoded>
    requires ty.ArrayTy? && HasType(v, ty) && n <= |v.elems|
    decreases ty, 0, n
  {
    if n == 0 then []
    else ElementsEncoding(v, ty, primitiveTypes, n - 1) + [GenericEncoding(v.elems[n - 1], ty.elem, primitiveTypes)]
  }

  // ===========================================================================
  // Completions: where a finished container delivers its node
  // ===========================================================================

  /** The slot that top-level encode reads its result from. */
  class Output {
    var node: Option<Encoded>

    constructor ()
      ensures node == None
    {
      node := None;
    }
  }

  /**
   * The completion of a container: the top-level output slot, an append under
   * a key to a keyed parent, an append to an unkeyed parent, or the slot of a
   * single-value parent.
   */
  datatype Sink =
    | ToOutput(output: Output)
    | ToKeyed(keyed: KeyedEncodingContainer, key: AnyCodingKey)
    | ToUnkeyed(unkeyed: UnkeyedEncodingContainer)
    | ToSingle(single: SingleValueEncodingContainer)
  {
    /** The one object a delivery changes. */
    function Target(): object {
      match this
      case ToOutput(o) => o
      case ToKeyed(k, _) => k
      case ToUnkeyed(u) => u
      case ToSingle(s) => s
    }
  }

  /** Between the previous state and now, `sink` has received `node` and nothing else about it changed. */
  twostate predicate Received(sink: Sink, node: Encoded)
    reads sink.Target()
  {
    match sink
    case ToOutput(o) => o.node == Some(node)
    case ToKeyed(k, key) => k.result == old(k.result) + [(key, node)] && k.finished == old(k.finished)
    case ToUnkeyed(u) => u.result == old(u.result) + [node] && u.finished == old(u.finished)
    case ToSingle(s) => s.result == Some(node) && s.finished == old(s.finished)
  }

  /**
   * The completion's target has not finished yet. A completion holds its
   * parent strongly, so a parent's scope ends only after every child has
   * delivered: no node is ever delivered to a finished container.
   */
  ghost predicate Open(sink: Sink)
    reads sink.Target()
  {
    match sink
    case ToOutput(_) => true
    case ToKeyed(k, _) => !k.finished
    case ToUnkeyed(u) => !u.finished
    case ToSingle(s) => !s.finished
  }

  /** Runs a completion. */
  method Deliver(sink: Sink, node: Encoded)
    requires Open(sink)
    modifies sink.Target()
    ensures Received(sink, node)
  {
    match sink
    case ToOutput(o) => o.node := Some(node);
    case ToKeyed(k, key) => k.result := k.result + [(key, node)];
    case ToUnkeyed(u) => u.result := u.result + [node];
    case ToSingle(s) => s.result := Some(node);
  }

  // ===========================================================================
  // The root, the dispatcher and the containers
  // ===========================================================================

  /** The root context of an encode: the configured pass-through types. */
  class PrimitiveEncoder {
    /** Types stored as-is as `Single` nodes instead of being taken apart. */
    var primitiveTypes: seq<Ty>

    constructor ()
      ensures primitiveTypes == []
    {
      primitiveTypes := [];
    }

    /**
     * Top-level encode: one single-value container at the empty path whose
     * completion fills the output slot; `foundNil` when nothing was delivered.
     */
    method Encode(v: Value, ty: Ty) returns (r: Result<Encoded, EncodingError>)
      requires HasType(v, ty)
      ensures r == Ok(GenericEncoding(v, ty, primitiveTypes))
    {
      var output := new Output();
      var container := new SingleValueEncodingContainer([], this, ToOutput(output));
      container.Encode(v, ty);
      var delivered := container.Finish();
      r := match output.node
        case None => Err(FoundNil)
        case Some(node) => Ok(node);
    }
  }

  /** The encoder handed to a type's own encode; every container it opens inherits its completion. */
  class Encoder {
    const codingPath: Path
    const root: PrimitiveEncoder
    const completion: Sink

    constructor (codingPath: Path, root: PrimitiveEncoder, completion: Sink)
      ensures this.codingPath == codingPath && this.root == root && this.completion == completion
    {
      this.codingPath := codingPath;
      this.root := root;
      this.completion := completion;
    }

    method Container() returns (c: KeyedEncodingContainer)
      ensures fresh(c) && c.codingPath == codingPath && c.root == root && c.completion == completion
      ensures c.result == [] && !c.finished
    {
      c := new KeyedEncodingContainer(codingPath, root, completion);
    }

    method UnkeyedContainer() returns (c: UnkeyedEncodingContainer)
      ensures fresh(c) && c.codingPath == codingPath && c.root == root && c.completion == completion
      ensures c.result == [] && !c.finished
    {
      c := new UnkeyedEncodingContainer(codingPath, root, completion);
    }

    method SingleValueContainer() returns (c: SingleValueEncodingContainer)
      ensures fresh(c) && c.codingPath == codingPath && c.root == root && c.completion == completion
      ensures c.result == None && !c.finished
    {
      c := new SingleValueEncodingContainer(codingPath, root, completion);
    }
  }

  /** A keyed container: appends `(key, node)` pairs in call order. */
  class KeyedEncodingContainer {
    const codingPath: Path
    const root: PrimitiveEncoder
    const completion: Sink
    var result: seq<(AnyCodingKey, Encoded)>
    /** Whether the container has finished and delivered its node. */
    ghost var finished: bool

    constructor (codingPath: Path, root: PrimitiveEncoder, completion: Sink)
      ensures this.codingPath == codingPath && this.root == root && this.completion == completion
      ensures result == [] && !finished
    {
      this.codingPath := codingPath;
      this.root := root;
      this.completion := completion;
      result := [];
      finished := false;
    }

    /** The scalar overloads (`encode(_: Int, forKey:)` and the like). */
    method EncodeScalar(v: Value, key: AnyCodingKey)
      requires v.PrimVal? && !finished
      modifies this
      ensures result == old(result) + [(key, Single(v))] && !finished
    {
      result := result + [(key, Single(v))];
    }

    method EncodeNil(key: AnyCodingKey)
      requires !finished
      modifies this
      ensures result == old(result) + [(key, Nil)] && !finished
    {
      result := result + [(key, Nil)];
    }

    /** The generic `encode(_:forKey:)`: a pass-through value as-is, otherwise through a nested encoder at path + [key]. */
    method Encode(v: Value, ty: Ty, key: AnyCodingKey)
      requires HasType(v, ty) && !finished
      modifies this
      ensures result == old(result) + [(key, GenericEncoding(v, ty, root.primitiveTypes))] && !finished
      decreases ty, 3
    {
      if ty in root.primitiveTypes {
        result := result + [(key, Single(v))];
      } else {
        var encoder := new Encoder(codingPath + [key], root, ToKeyed(this, key));
        EncodeSelf(v, ty, encoder);
      }
    }

    method NestedContainer(key: AnyCodingKey) returns (c: KeyedEncodingContainer)
      ensures fresh(c) && c.codingPath == codingPath + [key] && c.root == root && c.completion == ToKeyed(this, key)
      ensures c.result == [] && !c.finished
    {
      c := new KeyedEncodingContainer(codingPath + [key], root, ToKeyed(this, key));
    }

    method NestedUnkeyedContainer(key: AnyCodingKey) returns (c: UnkeyedEncodingContainer)
      ensures fresh(c) && c.codingPath == codingPath + [key] && c.root == root && c.completion == ToKeyed(this, key)
      ensures c.result == [] && !c.finished
    {
      c := new UnkeyedEncodingContainer(codingPath + [key], root, ToKeyed(this, key));
    }

    /** An encoder for the superclass, delivering under the reserved key `super`. */
    method SuperEncoder() returns (e: Encoder)
      ensures fresh(e) && e.codingPath == codingPath + [Super] && e.root == root && e.completion == ToKeyed(this, Super)
    {
      e := new Encoder(codingPath + [Super], root, ToKeyed(this, Super));
    }

    method SuperEncoderForKey(key: AnyCodingKey) returns (e: Encoder)
      ensures fresh(e) && e.codingPath == codingPath + [key] && e.root == root && e.completion == ToKeyed(this, key)
    {
      e := new Encoder(codingPath + [key], root, ToKeyed(this, key));
    }

    /** The end of the container's scope: deliver `Keyed(result)` to the completion, once. */
    method Finish()
      requires !finished && completion.Target() != this && Open(completion)
      modifies this, completion.Target()
      ensures finished && result == old(result)
      ensures Received(completion, Keyed(old(result)))
    {
      finished := true;
      Deliver(completion, Keyed(result));
    }
  }

  /** An unkeyed container: appends nodes in call order. */
  class UnkeyedEncodingContainer {
    const codingPath: Path
    const root: PrimitiveEncoder
    const completion: Sink
    /** The element count used in nested paths; it is never incremented, so it stays 0. */
    const count: int := 0
    var result: seq<Encoded>
    /** Whether the container has finished and delivered its node. */
    ghost var finished: bool

    constructor (codingPath: Path, root: PrimitiveEncoder, completion: Sink)
      ensures this.codingPath == codingPath && this.root == root && this.completion == completion
      ensures result == [] && !finished
    {
      this.codingPath := codingPath;
      this.root := root;
      this.completion := completion;
      result := [];
      finished := false;
    }

    /** The scalar overloads (`encode(_: Int)` and the like). */
    method EncodeScalar(v: Value)
      requires v.PrimVal? && !finished
      modifies this
      ensures result == old(result) + [Single(v)] && !finished
    {
      result := result + [Single(v)];
    }

    method EncodeNil()
      requires !finished
      modifies this
      ensures result == old(result) + [Nil] && !finished
    {
      result := result + [Nil];
    }

    /** The generic `encode(_:)`: a pass-through value as-is, otherwise through a nested encoder at the same path. */
    method Encode(v: Value, ty: Ty)
      requires HasType(v, ty) && !finished
      modifies this
      ensures result == old(result) + [GenericEncoding(v, ty, root.primitiveTypes)] && !finished
      decreases ty, 3
    {
      if ty in root.primitiveTypes {
        result := result + [Single(v)];
      } else {
        var encoder := new Encoder(codingPath, root, ToUnkeyed(this));
        EncodeSelf(v, ty, encoder);
      }
    }

    method NestedContainer() returns (c: KeyedEncodingContainer)
      ensures fresh(c) && c.codingPath == codingPath + [Index(count)] && c.root == root && c.completion == ToUnkeyed(this)
      ensures c.result == [] && !c.finished
    {
      c := new KeyedEncodingContainer(codingPath + [Index(count)], root, ToUnkeyed(this));
    }

    method NestedUnkeyedContainer() returns (c: UnkeyedEncodingContainer)
      ensures fresh(c) && c.codingPath == codingPath + [Index(count)] && c.root == root && c.completion == ToUnkeyed(this)
      ensures c.result == [] && !c.finished
    {
      c := new UnkeyedEncodingContainer(codingPath + [Index(count)], root, ToUnkeyed(this));
    }

    method SuperEncoder() returns (e: Encoder)
      ensures fresh(e) && e.codingPath == codingPath + [Super] && e.root == root && e.completion == ToUnkeyed(this)
    {
      e := new Encoder(codingPath + [Super], root, ToUnkeyed(this));
    }

    /** The end of the container's scope: deliver `Unkeyed(result)` to the completion, once. */
    method Finish()
      requires !finished && completion.Target() != this && Open(completion)
      modifies this, completion.Target()
      ensures finished && result == old(result)
      ensures Received(completion, Unkeyed(old(result)))
    {
      finished := true;
      Deliver(completion, Unkeyed(result));
    }
  }

  /** A single-value container: one slot, each write replacing the last. */
  class SingleValueEncodingContainer {
    const codingPath: Path
    const root: PrimitiveEncoder
    const completion: Sink
    var result: Option<Encoded>
    /** Whether the container has finished. */
    ghost var finished: bool

    constructor (codingPath: Path, root: PrimitiveEncoder, completion: Sink)
      ensures this.codingPath == codingPath && this.root == root && this.completion == completion
      ensures result == None && !finished
    {
      this.codingPath := codingPath;
      this.root := root;
      this.completion := completion;
      result := None;
      finished := false;
    }

    /** The scalar overloads (`encode(_: Int)` and the like). */
    method EncodeScalar(v: Value)
      requires v.PrimVal? && !finished
      modifies this
      ensures result == Some(Single(v)) && !finished
    {
      result := Some(Single(v));
    }

    method EncodeNil()
      requires !finished
      modifies this
      ensures result == Some(Nil) && !finished
    {
      result := Some(Nil);
    }

    /** The generic `encode(_:)`: a pass-through value as-is, otherwise through a nested encoder writing this slot. */
    method Encode(v: Value, ty: Ty)
      requires HasType(v, ty) && !finished
      modifies this
      ensures result == Some(GenericEncoding(v, ty, root.primitiveTypes)) && !finished
      decreases ty, 3
    {
      if ty in root.primitiveTypes {
        result := Some(Single(v));
      } else {
        var encoder := new Encoder(codingPath, root, ToSingle(this));
        EncodeSelf(v, ty, encoder);
      }
    }

    /**
     * The end of the container's scope: deliver the last value written, once.
     * With nothing written there is nothing to deliver and the completion is
     * left as it was.
     */
    method Finish() returns (delivered: bool)
      requires !finished && completion.Target() != this && Open(completion)
      modifies this, completion.Target()
      ensures finished && result == old(result)
      ensures delivered == old(result).Some?
      ensures delivered ==> Received(completion, old(result).value)
      ensures !delivered ==> unchanged(completion.Target())
    {
      finished := true;
      delivered := result.Some?;
      if delivered {
        Deliver(completion, result.value);
      }
    }
  }

  /**
   * `encode(to: encoder)` of the closed family of types: a scalar writes its
   * single value, a struct encodes its fields by key in declaration order, an
   * array encodes its elements in order; the container then finishes and its
   * node reaches the encoder's completion.
   */
  method EncodeSelf(v: Value, ty: Ty, encoder: Encoder)
    requires HasType(v, ty) && Open(encoder.completion)
    modifies encoder.completion.Target()
    ensures Received(encoder.completion, SelfEncoding(v, ty, encoder.root.primitiveTypes))
    decreases ty, 2
  {
    var primitiveTypes := encoder.root.primitiveTypes;
    match ty
    case PrimTy(_) =>
      var c := encoder.SingleValueContainer();
      c.EncodeScalar(v);
      var delivered := c.Finish();
    case StructTy(_, fields) =>
      var c := encoder.Container();
      var i := 0;
      while i < |fields|
        invariant 0 <= i <= |fields|
        invariant c.result == FieldsEncoding(v, ty, primitiveTypes, i) && !c.finished
        invariant unchanged(encoder.completion.Target())
      {
        c.Encode(v.fields[i], fields[i].ty, Name(fields[i].name));
        i := i + 1;
      }
      c.Finish();
    case ArrayTy(elem) =>
      var c := encoder.UnkeyedContainer();
      var i := 0;
      while i < |v.elems|
        invariant 0 <= i <= |v.elems|
        invariant c.result == ElementsEncoding(v, ty, primitiveTypes, i) && !c.finished
        invariant unchanged(encoder.completion.Target())
      {
        c.Encode(v.elems[i], elem);
        i := i + 1;
      }
      c.Finish();
  }

  // ===========================================================================
  // Properties of the specification
  // ===========================================================================

  /** The `j`-th pair of a struct's keyed node is its `j`-th field under its own name, in declaration order. */
  lemma {:induction false} FieldsEncodingAt(v: Value, ty: Ty, primitiveTypes: seq<Ty>, n: nat, j: nat)
    requires ty.StructTy? && HasType(v, ty) && j < n <= |ty.fields|
    ensures |FieldsEncoding(v, ty, primitiveTypes, n)| == n
    ensures FieldsEncoding(v, ty, primitiveTypes, n)[j]
      == (Name(ty.fields[j].name), GenericEncoding(v.fields[j], ty.fields[j].ty, primitiveTypes))
  {
    if j < n - 1 {
      FieldsEncodingAt(v, ty, primitiveTypes, n - 1, j);
    } else if n > 1 {
      FieldsEncodingAt(v, ty, primitiveTypes, n - 1, 0);
    }
  }

  /** The `j`-th node of an array's unkeyed node is the encoding of its `j`-th element. */
  lemma {:induction false} ElementsEncodingAt(v: Value, ty: Ty, primitiveTypes: seq<Ty>, n: nat, j: nat)
    requires ty.ArrayTy? && HasType(v, ty) && j < n <= |v.elems|
    ensures |ElementsEncoding(v, ty, primitiveTypes, n)| == n
    ensures ElementsEncoding(v, ty, primitiveTypes, n)[j] == GenericEncoding(v.elems[j], ty.elem, primitiveTypes)
  {
    if j < n - 1 {
      ElementsEncodingAt(v, ty, primitiveTypes, n - 1, j);
    } else if n > 1 {
      ElementsEncodingAt(v, ty, primitiveTypes, n - 1, 0);
    }
  }

  /**
   * A field whose type is a pass-through type is stored as a `Single` node
   * holding the field's value unchanged, not taken apart.
   */
  lemma PassThroughField(v: Value, ty: Ty, primitiveTypes: seq<Ty>, j: nat)
    requires ty.StructTy? && HasType(v, ty) && j < |ty.fields|
    requires ty !in primitiveTypes && ty.fields[j].ty in primitiveTypes
    ensures GenericEncoding(v, ty, primitiveTypes).Keyed?
    ensures |GenericEncoding(v, ty, primitiveTypes).entries| == |ty.fields|
    ensures GenericEncoding(v, ty, primitiveTypes).entries[j] == (Name(ty.fields[j].name), Single(v.fields[j]))
  {
    FieldsEncodingAt(v, ty, primitiveTypes, |ty.fields|, j);
  }

  /** Encoding `{a: 1, b: 2}` gives the two pairs in declaration order. */
  lemma EncodesTwoFields(a: Payload, b: Payload)
    ensures var ty := StructTy("Pair", [Field("a", PrimTy("Int")), Field("b", PrimTy("Int"))]);
      var v := StructVal("Pair", [PrimVal("Int", a), PrimVal("Int", b)]);
      HasType(v, ty) &&
      GenericEncoding(v, ty, []) == Keyed([(Name("a"), Single(PrimVal("Int", a))), (Name("b"), Single(PrimVal("Int", b)))])
  {
    var ty := StructTy("Pair", [Field("a", PrimTy("Int")), Field("b", PrimTy("Int"))]);
    var v := StructVal("Pair", [PrimVal("Int", a), PrimVal("Int", b)]);
    assert HasType(v, ty);
    assert FieldsEncoding(v, ty, [], 1) == [(Name("a"), Single(PrimVal("Int", a)))];
  }
}

=== FILE: results.dfy ===
/** Failure-compatible result type used for the thrown errors of both engines. */
module Results {

  /** Either the value a call produced or the error it threw. */
  datatype Result<+T, +E> = Ok(value: T) | Err(error: E) {

    predicate IsFailure() {
      Err?
    }

    function PropagateFailure<U>(): Result<U, E>
      requires Err?
    {
      Err(error)
    }

    function Extract(): T
      requires Ok?
    {
      value
    }
  }

  datatype Option<+T> = None | Some(value: T)
}

=== FILE: round_trip.dfy ===
/**
 * Encode followed by decode. The encoder produces an `Encoded` tree, whose
 * keyed nodes are ordered lists of pairs; the decoder reads a string-keyed
 * dictionary tree. `ToDyn` is the obvious bridge between the two (`.nil` to
 * nil, a keyed node to the dictionary of its keys' string values, where a
 * later pair for the same string replaces an earlier one). Over that bridge,
 * decoding what a value encodes to gives the value back, for every
 * configuration of pass-through types.
 */
module RoundTrip {
  import opened Results
  import opened CodingKeys
  import opened Values
  import opened PrimitiveDecoding
  import opened PrimitiveEncoding

  /** The dictionary tree an encoded tree stands for. */
  function ToDyn(e: Encoded): Dyn
    decreases e, 1, 0
  {
    match e
    case Nil => Absent
    case Single(v) => Scalar(v)
    case Keyed(entries) => Mapping(EntriesToMap(e, |entries|))
    case Unkeyed(items) => Sequence(ItemsToSeq(e, |items|))
  }

  /** The dictionary of the first `n` pairs of a keyed node, keyed by each key's string value. */
  function EntriesToMap(e: Encoded, n: nat): map<string, Dyn>
    requires e.Keyed? && n <= |e.entries|
    decreases e, 0, n
  {
    if n == 0 then map[]
    else EntriesToMap(e, n - 1)[e.entries[n - 1].0.StringValue() := ToDyn(e.entries[n - 1].1)]
  }

  /** The array of the first `n` nodes of an unkeyed node. */
  function ItemsToSeq(e: Encoded, n: nat): (s: seq<Dyn>)
    requires e.Unkeyed? && n <= |e.items|
    ensures |s| == n
    ensures forall i :: 0 <= i < n ==> s[i] == ToDyn(e.items[i])
    decreases e, 0, n
  {
    if n == 0 then [] else ItemsToSeq(e, n - 1) + [ToDyn(e.items[n - 1])]
  }

  /** The dictionary's keys are exactly the display strings of the node's keys. */
  lemma {:induction false} EntriesToMapKeys(e: Encoded, n: nat, k: string)
    requires e.Keyed? && n <= |e.entries|
    ensures k in EntriesToMap(e, n) <==> exists i :: 0 <= i < n && e.entries[i].0.StringValue() == k
  {
    if n > 0 {
      EntriesToMapKeys(e, n - 1, k);
    }
  }

  /**
   * In the dictionary of a keyed node, the string of the `j`-th key holds the
   * `j`-th node whenever no later pair reuses that string.
   */
  lemma {:induction false} EntriesToMapAt(e: Encoded, n: nat, j: nat)
    requires e.Keyed? && j < n <= |e.entries|
    requires forall i :: j < i < n ==> e.entries[i].0.StringValue() != e.entries[j].0.StringValue()
    ensures e.entries[j].0.StringValue() in EntriesToMap(e, n)
    ensures EntriesToMap(e, n)[e.entries[j].0.StringValue()] == ToDyn(e.entries[j].1)
  {
    if j < n - 1 {
      EntriesToMapAt(e, n - 1, j);
    }
  }

  /** Decoding what a value encodes to gives the value back. */
  lemma {:induction false} GenericRoundTrip(v: Value, ty: Ty, primitiveTypes: seq<Ty>, path: Path)
    requires HasType(v, ty) && WellFormed(ty)
    ensures GenericDecoding(ToDyn(GenericEncoding(v, ty, primitiveTypes)), ty, path) == Ok(v)
    decreases ty, 2, 0
  {
    if ty !in primitiveTypes {
      SelfRoundTrip(v, ty, primitiveTypes, path);
    }
  }

  /** Decoding what a value's own encode produces gives the value back. */
  lemma {:induction false} SelfRoundTrip(v: Value, ty: Ty, primitiveTypes: seq<Ty>, path: Path)
    requires HasType(v, ty) && WellFormed(ty)
    ensures GenericDecoding(ToDyn(SelfEncoding(v, ty, primitiveTypes)), ty, path) == Ok(v)
    decreases ty, 1, 0
  {
    match ty
    case PrimTy(_) =>
    case StructTy(_, fields) =>
      FieldsRoundTrip(v, ty, primitiveTypes, |fields|, path);
      assert v.fields[..|fields|] == v.fields;
    case ArrayTy(_) =>
      ElementsRoundTrip(v, ty, primitiveTypes, |v.elems|, path);
      assert v.elems[..|v.elems|] == v.elems;
  }

  /** The first `n` fields read back from the dictionary of a struct's keyed node are its first `n` field values. */
  lemma {:induction false} FieldsRoundTrip(v: Value, ty: Ty, primitiveTypes: seq<Ty>, n: nat, path: Path)
    requires ty.StructTy? && HasType(v, ty) && WellFormed(ty) && n <= |ty.fields|
    ensures FieldsDecoding(ToDyn(SelfEncoding(v, ty, primitiveTypes)).entries, ty, n, path) == Ok(v.fields[..n])
    decreases ty, 0, n
  {
    if n > 0 {
      var m := ToDyn(SelfEncoding(v, ty, primitiveTypes)).entries;
      var field := ty.fields[n - 1];
      var key := Name(field.name);
      FieldsRoundTrip(v, ty, primitiveTypes, n - 1, path);
      assert FieldsDecoding(m, ty, n - 1, path) == Ok(v.fields[..n - 1]);
      FieldEntry(v, ty, primitiveTypes, n - 1, path);
      assert Lookup(m, key, path) == Ok(ToDyn(GenericEncoding(v.fields[n - 1], field.ty, primitiveTypes)));
      GenericRoundTrip(v.fields[n - 1], field.ty, primitiveTypes, path + [key]);
      FieldsDecodingStep(m, ty, n, path, v.fields[..n - 1],
        ToDyn(GenericEncoding(v.fields[n - 1], field.ty, primitiveTypes)), v.fields[n - 1]);
      assert v.fields[..n - 1] + [v.fields[n - 1]] == v.fields[..n];
    }
  }

  /**
   * A struct's `j`-th field is found in the dictionary of its keyed node under
   * the field's name, holding the field value's encoding (field names are distinct).
   */
  lemma FieldEntry(v: Value, ty: Ty, primitiveTypes: seq<Ty>, j: nat, path: Path)
    requires ty.StructTy? && HasType(v, ty) && WellFormed(ty) && j < |ty.fields|
    ensures Lookup(ToDyn(SelfEncoding(v, ty, primitiveTypes)).entries, Name(ty.fields[j].name), path)
      == Ok(ToDyn(GenericEncoding(v.fields[j], ty.fields[j].ty, primitiveTypes)))
  {
    var e := SelfEncoding(v, ty, primitiveTypes);
    FieldsEncodingAt(v, ty, primitiveTypes, |ty.fields|, j);
    forall i | j < i < |ty.fields|
      ensures e.entries[i].0.StringValue() != e.entries[j].0.StringValue()
    {
      FieldsEncodingAt(v, ty, primitiveTypes, |ty.fields|, i);
    }
    EntriesToMapAt(e, |e.entries|, j);
  }

  /** The first `n` elements read back from an array's unkeyed node are its first `n` elements. */
  lemma {:induction false} ElementsRoundTrip(v: Value, ty: Ty, primitiveTypes: seq<Ty>, n: nat, path: Path)
    requires ty.ArrayTy? && HasType(v, ty) && WellFormed(ty) && n <= |v.elems|
    ensures |ToDyn(SelfEncoding(v, ty, primitiveTypes)).items| == |v.elems|
    ensures ElementsDecoding(ToDyn(SelfEncoding(v, ty, primitiveTypes)).items, ty, n, path) == Ok(v.elems[..n])
    decreases ty, 0, n
  {
    var e := SelfEncoding(v, ty, primitiveTypes);
    if |v.elems| > 0 {
      ElementsEncodingAt(v, ty, primitiveTypes, |v.elems|, 0);
    }
    if n > 0 {
      ElementsRoundTrip(v, ty, primitiveTypes, n - 1, path);
      ElementsEncodingAt(v, ty, primitiveTypes, |v.elems|, n - 1);
      GenericRoundTrip(v.elems[n - 1], ty.elem, primitiveTypes, path + [Index(n - 1)]);
      ElementsDecodingStep(ToDyn(e).items, ty, n, path, v.elems[..n - 1], v.elems[n - 1]);
      assert v.elems[..n - 1] + [v.elems[n - 1]] == v.elems[..n];
    }
  }

  /**
   * The round trip through the two engines' top-level entry points: whatever
   * pass-through types the encoder is configured with, decoding its output
   * gives the value back.
   */
  method EncodeThenDecode(encoder: PrimitiveEncoder, v: Value, ty: Ty) returns (r: Result<Value, DecodingError>)
    requires HasType(v, ty) && WellFormed(ty)
    ensures r == Ok(v)
  {
    var encoded := encoder.Encode(v, ty);
    GenericRoundTrip(v, ty, encoder.primitiveTypes, []);
    r := PrimitiveDecoding.Decode(ty, ToDyn(encoded.value));
  }
}

=== FILE: values.dfy ===
/**
 * The closed world the engines work on: a small family of typed values that
 * stand for the structured types plugged into the engines, and the untyped
 * in-memory tree that decoding reads.
 */
module Values {

  /** The name of a Swift type, e.g. "Int", "String", "Date" or a struct's name. */
  type TypeName = string

  /** The bits of a scalar value; the engines only carry them and never look inside. */
  type Payload = seq<bv8>

  /** A stored property of a struct: its name (also its coding key) and its type. */
  datatype Field = Field(name: string, ty: Ty)

  /**
   * A type whose encode and decode the engines drive:
   * `PrimTy` a scalar type that reads and writes itself through a single-value container
   * (Bool, String, the integer and floating-point types, or a type such as Date);
   * `StructTy` a struct with synthesised keyed coding of its fields in declaration order;
   * `ArrayTy` an Array, coded element by element through an unkeyed container.
   */
  datatype Ty = PrimTy(name: TypeName) | StructTy(name: TypeName, fields: seq<Field>) | ArrayTy(elem: Ty)

  /** A value of one of those types; which type is said by HasType. */
  datatype Value =
    | PrimVal(name: TypeName, payload: Payload)
    | StructVal(name: TypeName, fields: seq<Value>)
    | ArrayVal(elems: seq<Value>)

  /** `v` is a value of type `ty` (what Swift's static typing guarantees of a `T` argument). */
  predicate HasType(v: Value, ty: Ty)
    decreases ty
  {
    match ty
    case PrimTy(n) => v.PrimVal? && v.name == n
    case StructTy(n, fs) =>
      && v.StructVal? && v.name == n && |v.fields| == |fs|
      && forall i :: 0 <= i < |fs| ==> HasType(v.fields[i], fs[i].ty)
    case ArrayTy(e) =>
      v.ArrayVal? && forall i :: 0 <= i < |v.elems| ==> HasType(v.elems[i], e)
  }

  /** Every struct in `ty` has pairwise distinct field names, as a Swift struct declaration does. */
  predicate WellFormed(ty: Ty)
    decreases ty
  {
    match ty
    case PrimTy(_) => true
    case StructTy(_, fs) =>
      && (forall i, j :: 0 <= i < j < |fs| ==> fs[i].name != fs[j].name)
      && forall i :: 0 <= i < |fs| ==> WellFormed(fs[i].ty)
    case ArrayTy(e) => WellFormed(e)
  }

  /**
   * The already-materialised untyped tree that decoding reads.
   * `Absent` is nil; `Scalar` a leaf holding an already-typed value as-is (a
   * primitive, or any value the caller placed there, such as a Date);
   * `Mapping` a string-keyed dictionary whose entries may themselves be nil;
   * `Sequence` an array.
   */
  datatype Dyn =
    | Absent
    | Scalar(value: Value)
    | Mapping(entries: map<string, Dyn>)
    | Sequence(items: seq<Dyn>)
}
